=== FILE: README.md ===
# Spotify catalog manager: the store and the add path, in Dafny

This project models the catalog store of a small Flask application. The store
keeps Spotify artists, albums and tracks in three SQLite tables. The model also
covers the web code that turns a pasted Spotify link into rows of those tables.

- `wrappers.dfy` (`Wrappers`): `Option` and `Result`. They stand for Python's
  `None` and for raised exceptions.
- `strings.dfy` (`Strings`): the string operations the source relies on.
  - Python's `split(...)[-1]` and `split(...)[0]`, `", ".join` and `int(...)`;
  - `str(n)`;
  - JavaScript's `split(', ')`, which the page uses to read genres back;
  - how SQLite reads a name spliced into SQL text: without surrounding
    whitespace, and compared without regard to ASCII case.
- `images.dfy` (`Images`): how `add_artist` picks an image.
  - The images are sorted stably by width, widest first.
  - The first one whose width is in [200, 500] wins; otherwise the widest does.
  - The loop with `break` is a method, proved against a declarative rule: the
    widest eligible image, and the earliest one when widths tie.
- `catalog.dfy` (`Catalog`): the database as a value.
  - Rows are datatypes. A nullable column is an `Option`, and `release_year` is
    a `Value` (NULL, an integer or text), as SQLite's INTEGER affinity stores it.
  - The rows that `add_artist`, `add_album` and `add_track` write.
  - Keyed upserts and deletes.
  - The two integrity queries.
  - The orphan-artist sweep.
  - The inner-joined item listing of `get_all_items`.
- `csv.dfy` (`CsvTransfer`): CSV export and import on rows that are already
  split into cells.
  - The block layout of the export.
  - `_insert_csv_data`: decode the block, then upsert it as one transaction.
  - The import loop, written as a step function over rows.
  - The round trip from export back through import.
- `database.dfy` (`Database`): class `Store` has three map fields, updated in
  place by one method per mutating function of `database.py`.
  - Each method is proved to change `Contents()` exactly as the matching
    function of `Catalog` or `CsvTransfer` says.
  - `ImportDatabaseCsv` is the source's loop, with `current_table`, `headers`
    and `data` as local variables. Its invariant ties it to the step function.
- `app.dfy` (`WebApp`): the web layer.
  - `extract_spotify_info`, with the Spotify client replaced by a snapshot of
    its answers.
  - The `/add` handler, as a method on a `Store` and as a function on values.
  - The type filter of `/browse`.

Scan order is unspecified where the source runs `SELECT` without `ORDER BY`
(export), or orders by collation (the listing). There the caller supplies each
table's key order as a parameter. The parameter must list every key once
(`IsEnumeration`).

Import upserts without clearing the table. Each block's `executemany` runs
inside one connection context, which commits on success and rolls back on
error. So each block is all-or-nothing, and blocks committed before a failing
block stay committed. Table and column names from the file are spliced into the
SQL text, so SQLite reads them as identifiers: surrounding whitespace is not
part of a name, and ASCII case is ignored.

## Model

| member | source | states |
|---|---|---|
| `Images.SortByWidthDesc` | database.py:66 | the sorted list is a permutation of the images, in non-increasing width |
| `Images.BestIndex` | database.py:66-72 | the chosen index is eligible, no eligible image is wider, and no earlier eligible image is as wide; none exactly when nothing is eligible |
| `Images.SortedFirstEligible` | database.py:66-72 | the first eligible image of the stable width-descending sort is the earliest widest eligible image of the input |
| `Images.ChooseImageUrl` | database.py:62-72 | the loop with `break` returns the URL of the preferred image, and "" when there are no images |
| `Catalog.ImageUrlChoice` | database.py:62-72 | stored `image_url`: "" without images; else the widest image with width in [200, 500], the earliest among equals; else the widest image |
| `Catalog.GenresRoundTrip` | database.py:60 | the stored genre text is "" for no genres, and splitting it on ", " gives the genre list back when no genre holds ", " |
| `Strings.SplitJoin` | static/app.js:347 | splitting a ", "-joined non-empty list gives the list back when no part holds ", "; a part may hold or end in a bare comma |
| `Strings.SplitJoinSeparatorInPart` | static/app.js:347 | a part that holds ", " splits into two, so the requirement of the round trip cannot be dropped |
| `Strings.SplitJoinBareComma` | static/app.js:347 | parts such as "a,b" and "c," survive the round trip |
| `Catalog.ArtistRow` | database.py:57-78 | the Artists row is keyed by the artist id and sets every column; no genres give "", no Spotify link gives an empty `url`, no images give an empty `image_url`, and otherwise the image URL is one of the images' URLs |
| `Catalog.AlbumRow` | database.py:80-87 | the Albums row is keyed by the album id, names its artist, and stores the year as an integer with `uri` and `url` set |
| `Catalog.TrackRow` | database.py:89-96 | the Tracks row is keyed by the track id, names its artist and album, and stores the year as an integer with `uri` and `url` set |
| `Images.ImageUrl` | database.py:62-72 | "" without images, otherwise the URL of one of the images |
| `Catalog.WithArtist` | database.py:74-78 | after `INSERT OR REPLACE INTO Artists` the table has the old keys plus the new id, the new row under that id, every other row unchanged, and the other tables unchanged |
| `Catalog.WithAlbum` | database.py:80-87 | the same for `INSERT OR REPLACE INTO Albums` |
| `Catalog.WithTrack` | database.py:89-96 | the same for `INSERT OR REPLACE INTO Tracks` |
| `Catalog.UpsertIdempotent` | database.py:74-96 | repeating an upsert changes nothing |
| `Catalog.UpsertKeepsWellKeyed` | database.py:74-96 | upserts keep every row under its own id |
| `Catalog.DeleteUndoesFreshUpsert` | database.py:155-170 | deleting the id of a row that an upsert has just added restores the catalog |
| `Catalog.WithoutArtist` | database.py:167-170 | the Artists keys lose the id, every other Artists row keeps its value, and Albums and Tracks are unchanged |
| `Catalog.WithoutAlbum` | database.py:155-158 | the Albums keys lose the id, every other Albums row keeps its value, and Artists and Tracks are unchanged |
| `Catalog.WithoutItem` | database.py:172-176 | `delete_item` removes the id from Albums for exactly "album", and from Tracks for any other type; the remaining rows keep their values and the other tables are untouched |
| `Catalog.ArtistHasContent` | database.py:160-165 | true exactly when some track or some album names the artist |
| `Catalog.AlbumHasTracks` | database.py:149-153 | true exactly when some track names the album |
| `Catalog.DeleteArtistKeepsChildren` | database.py:167-170 | deleting an artist removes only that row: the other artists stay, its albums and tracks stay, and it still counts as having content |
| `Catalog.DeleteAlbumKeepsTracks` | database.py:155-158 | deleting an album removes only that row: the other albums stay, its tracks stay, and it still counts as having tracks |
| `Catalog.WithoutUnusedArtists` | database.py:253-260 | the sweep keeps exactly the artists that have content, with their rows unchanged; Albums and Tracks are unchanged |
| `Catalog.CleanupLeavesOnlyContent` | database.py:248-261 | after the sweep every artist has content, nothing is unused, and a second sweep changes nothing |
| `Catalog.CleanupCount` | database.py:262 | the number of unused artists is the number of Artists rows the sweep deletes |
| `Catalog.CleanupKeepsWellKeyed` | database.py:253-260 | the sweep keeps every row under its own id |
| `Catalog.AlbumItems` | database.py:101-106 | every row of the album join has type "album" |
| `Catalog.TrackItems` | database.py:108-113 | every row of the track join has type "track" |
| `Catalog.AllItems` | database.py:98-115 | no album row comes after a track row |
| `Catalog.AlbumItemsMembers` | database.py:101-106 | the album join lists exactly the albums whose artist row exists, each with its own columns and its artist's name and genres |
| `Catalog.TrackItemsMembers` | database.py:108-113 | the track join lists exactly the tracks whose artist row exists, each with its own columns and its artist's name and genres |
| `Catalog.AllItemsMembers` | database.py:98-115 | the listing holds every album and every track whose artist exists, and only those |
| `CsvTransfer.TableNamed` | database.py:241 | a marker name picks the table whose name it equals once surrounding whitespace is dropped and ASCII case is ignored, and no table when it equals none of them |
| `Strings.TrimPadded` | database.py:241 | whitespace added at either end of a name is not part of the name the SQL text gives |
| `CsvTransfer.PaddedNamesAccepted` | database.py:234-246 | a block marked " artists " with the header `id`, ` name` is stored: the padded names still name the table and its columns |
| `CsvTransfer.ColumnIndex` | database.py:241 | a named column resolves to the first header that matches it case-insensitively, or to nothing when no header matches |
| `CsvTransfer.UnknownColumn` | database.py:241 | no unknown column is reported exactly when every header names a column of the table |
| `CsvTransfer.YearCellStores` | database.py:240-243 | no cell stores NULL; a cell that reads as an integer stores that integer; any other cell stores its text |
| `Strings.ParseIntShape` | app.py:33 | `int` accepts exactly a non-empty run of digits, alone or after one "+" or "-"; the value is negative only after a leading "-" |
| `Strings.ParseIntToString` | database.py:197 | the decimal text of an integer parses back to it |
| `CsvTransfer.DecodeRowCells` | database.py:240-243 | a decoded row belongs to the block's table, its key is the row's `id` cell, and every other column holds the cell under its header (NULL when the header lacks it), with `release_year` read through INTEGER affinity |
| `CsvTransfer.DecodeRowFails` | database.py:17-45 | a row fails exactly when the header lacks `id`, `name`, or (for albums and tracks) `artist_id`, or (for tracks) `album_id`; the error names such a missing column |
| `CsvTransfer.DecodeRows` | database.py:240-243 | a decoded block has one record per data row, each row of the header's width and decoded by the row rule |
| `CsvTransfer.InsertBlockEffect` | database.py:234-246 | an unknown table fails; a block that is stored decodes every data row, each row's `id` cell is that row's key, and that key then holds the last data row with the same `id` cell; the other tables stay as they were, no key is removed, and an empty block changes nothing |
| `CsvTransfer.LastSameId` | database.py:240-243 | the row it picks is at or after the given row, carries the same `id` cell, and no later row carries it |
| `CsvTransfer.DecodedBlockStored` | database.py:240-243 | after a decoded block's upserts, each row's key holds the record of the last row with the same `id` cell |
| `CsvTransfer.UpsertRecordLookup` | database.py:240-243 | one `INSERT OR REPLACE` puts the row under its own table and id and leaves every other key as it was |
| `CsvTransfer.UpsertAllFrame` | database.py:240-243 | a block of one table's rows leaves the other tables alone and removes no key |
| `CsvTransfer.UpsertAllLookup` | database.py:240-243 | after a block each key holds the last row the block gives it; a key the block does not mention keeps its old row, so the table is not cleared |
| `CsvTransfer.UpsertAllKeepsWellKeyed` | database.py:240-243 | a block's upserts keep every row under its own id |
| `CsvTransfer.StepEffect` | database.py:214-226 | nothing changes on an empty row or after a raise; a marker with a block pending flushes it (on success the database is the insert's result and the new block starts empty under the marker's name; on error the import raises with the insert's error), a marker with nothing pending starts a new block and keeps the buffered rows, and any other row becomes the header if there is none yet, or else a data row; the database changes, or the import raises, only on such a flush |
| `CsvTransfer.FinishEffect` | database.py:228-229 | with a block pending, the final flush stores that block's insert result, or raises with its error and leaves the database as it was; with nothing pending, or after a raise, nothing changes; the flush changes only the database, or only the error |
| `CsvTransfer.ImportCsv` | database.py:203-232 | an import never removes a row, and an empty file changes nothing |
| `CsvTransfer.RunAppend` | database.py:214-226 | reading rows `a` and then `b` is the same as reading `a + b`: the loop carries all its state from row to row |
| `CsvTransfer.RunAfterFailure` | database.py:218-219 | once a block has raised, the remaining rows are not read and nothing more changes |
| `CsvTransfer.ImportSkipsEmptyRows` | database.py:215-216 | inserting an empty row anywhere does not change the outcome of an import |
| `CsvTransfer.StepKeepsRows` | database.py:217-229 | no row of the loop and no final flush removes a row of the database |
| `CsvTransfer.RunKeepsRows` | database.py:214-226 | reading any rows never removes a row of the database |
| `CsvTransfer.ImportNeverDeletes` | database.py:203-232 | an import, successful or not, keeps every row already present and every block committed earlier in the file |
| `CsvTransfer.StrayRowsJoinFirstBlock` | database.py:217-226 | data rows read before the first marker stay in the buffer and become part of the first table's block |
| `CsvTransfer.EmptyNameBlockIsDropped` | database.py:218-229 | a "[]" marker at the end names the empty table, whose block is never flushed |
| `CsvTransfer.EmptyNameRowsJoinNextBlock` | database.py:217-226 | rows under a "[]" marker that another marker follows are not flushed there and become part of the next table's block |
| `CsvTransfer.ExportData` | database.py:191-197 | one data row per key in scan order, as wide as the header, beginning with the row's id |
| `CsvTransfer.BlockLayout` | database.py:191-198 | a block is a marker row that the import reads back as the same table, the fixed header, the data rows and a blank row |
| `CsvTransfer.ExportLayout` | database.py:178-201 | the export is the artists, albums and tracks blocks, in that order, one data row per key |
| `CsvTransfer.ThroughCsvComplete` | database.py:182-184 | a row with every nullable column set and an integer year comes back unchanged, except that an artist's `image_url` comes back NULL |
| `CsvTransfer.DecodeExported` | database.py:182-184 | an exported row, decoded under the exported header, gives the round-tripped row |
| `CsvTransfer.ThroughCsvCatalogComplete` | database.py:181-197 | for a catalog of complete rows, the catalog the CSV carries is the catalog with every `image_url` NULL |
| `CsvTransfer.AddedRowsSurviveCsv` | database.py:57-96 | the rows the add operations write go through export and import unchanged, except the artist's `image_url` |
| `CsvTransfer.ExportImportComplete` | database.py:178-232 | exporting a catalog of complete rows and importing it into an empty database gives the catalog back, with every `image_url` NULL |
| `CsvTransfer.ExportImportRoundTrip` | database.py:178-232 | exporting a catalog and importing the rows into an empty database succeeds and gives the catalog as the CSV carries it, when no id looks like a "[table]" marker |
| `Database.Store.constructor` | database.py:13-49 | a fresh database file has three empty tables |
| `Database.Store.AddArtist` | database.py:57-78 | the artist row with the joined genres and the chosen image URL replaces or joins the Artists table |
| `Database.Store.AddAlbum` | database.py:80-87 | the album row replaces or joins the Albums table |
| `Database.Store.AddTrack` | database.py:89-96 | the track row replaces or joins the Tracks table |
| `Database.Store.DeleteAlbum` | database.py:155-158 | only that Albums key is removed |
| `Database.Store.DeleteArtist` | database.py:167-170 | only that Artists key is removed |
| `Database.Store.DeleteItem` | database.py:172-176 | the id is removed from the table that the type string selects |
| `Database.Store.CleanupUnusedArtists` | database.py:248-264 | the tables become the swept catalog, and the method returns the number of artists removed |
| `Database.Store.InsertCsvData` | database.py:234-246 | a block that decodes is upserted; one that fails reports its error and leaves the database as it was |
| `Database.Store.UpsertRecords` | database.py:240-243 | the loop upserts the decoded rows in order |
| `Database.Store.ImportDatabaseCsv` | database.py:203-232 | the loop leaves the database and the error that the import rule gives |
| `Database.Store.ExportTable` | database.py:191-198 | one table's block: marker row, fixed header, one row per record in scan order, blank row |
| `Database.Store.ExportDatabaseCsv` | database.py:178-201 | the artists, albums and tracks blocks, in that order |
| `WebApp.ItemId` | app.py:22 | the id contains neither "/" nor "?" |
| `WebApp.ItemIdOfLink` | app.py:22 | the id of `prefix/id` and of `prefix/id?query` is `id`, provided the query has no "/" |
| `WebApp.ReleaseYear` | app.py:33 | a release year is never negative, and only a date starting with a digit or "+" has one |
| `WebApp.ReleaseYearOfDate` | app.py:33 | a date "YYYY" or "YYYY-..." gives the year YYYY |
| `WebApp.ExtractSpotifyInfo` | app.py:19-66 | an album result needs "/album/" in the URL; a track result needs "/track/" and no "/album/"; the stored URL is the input verbatim; no images are passed on; the year is the parsed release year |
| `WebApp.ExtractAlbumSucceeds` | app.py:24-43 | for an album link, a result exists exactly when the album, its first artist and a numeric year are available |
| `WebApp.ExtractTrackSucceeds` | app.py:44-64 | for a track link, a result exists exactly when the track, its first artist and a numeric album year are available |
| `WebApp.ExtractNeedsKind` | app.py:19-66 | a URL with neither "/album/" nor "/track/" gives no result |
| `WebApp.Browse` | app.py:76-80 | with no `type` argument, or "all", every item is kept; any other type keeps only the items of that type, and all of them |
| `WebApp.KeepKind` | app.py:80 | the comprehension keeps exactly the items whose type equals the filter |
| `WebApp.BrowseAllItems` | app.py:76-80 | on the listing, "album" gives the album rows in order, "track" the track rows, and any other type nothing |
| `WebApp.AddItemOutcome` | app.py:89-114 | an empty or missing URL, or a failed extraction, gives a 400 error and leaves the catalog unchanged |
| `WebApp.AddItem` | app.py:89-114 | the handler writes the artist and then the album or the track, ending in the state and reply of the add rule |
| `WebApp.AddAlbumLinkEffect` | app.py:101-107 | an album add stores the artist with `image_url` "" and the album with the submitted URL; Tracks are unchanged; repeating the add changes nothing |
| `WebApp.AddTrackLinkEffect` | app.py:101-110 | a track add stores the artist with `image_url` "" and the track with the submitted URL; Albums are unchanged, so no album row is created; repeating the add changes nothing |

## Left out

- The Spotify client (`sp.album`, `sp.track`, `sp.artist`) is a parameter `Remote`: maps from id to record. An unknown id is an exception. Network errors, rate limits and other response shapes are not modelled.
- SQLite itself is not modelled: connections, `create_tables`, the `ALTER TABLE` migration, indexes and the database file. Foreign keys are never enforced, as in SQLite's default, so the model checks none.
- Database errors during `add_item` (the 500 reply) are not modelled. Upserts on the model cannot fail.
- File handling and the CSV text are not modelled: opening files, quoting and escaping, line endings. Rows are already split into cells.
- ORDER BY collation and the unordered `SELECT` of the export: each table's scan order is a parameter that lists every key once.
- `get_artists`, `get_artist_by_id`, `get_albums` and `get_album_by_id` (database.py:117-147) are read queries outside this model.
- Flask routing, `flash`, templates, `send_file`, temporary files and the routes `/` (app.py:69-71), `/artists` (app.py:84-87), `/delete` (app.py:116-123), `/export` (app.py:125-139), `/import` (app.py:141-174), `/download_sqlite` (app.py:176-189) and `/cleanup` (app.py:191-198) are not modelled as handlers. The store calls these routes make are modelled as `Database.Store` methods.
- `static/app.js` (apart from how it splits genres), `spotifyApi.py` and `wsgi.py` are not part of this model.
- The sync and reconciliation endpoints have no server-side code here and are not modelled.
- `Strings.ParseInt`: Python's `int` also accepts surrounding whitespace, underscores between digits and non-ASCII digits. The model accepts only an optional sign and ASCII digits.
- `CsvTransfer.YearCell`: SQLite's INTEGER affinity is not Python's `int`. SQLite converts text such as "2020.0" or "2.02e3" in an INTEGER column to a number and keeps "1_000" as text, and it stores integer text beyond 64 bits as a REAL. The model stores exactly the texts `Strings.ParseInt` accepts, as unbounded integers, and keeps every other text as text.
- `CsvTransfer.TableNamed`: a marker name is matched as one bare identifier after dropping surrounding whitespace. Quoted identifiers, SQL comments and names that would change the meaning of the spliced SQL are not modelled.
- `CsvTransfer.ColumnIndex`: a header cell is matched as one bare identifier after dropping surrounding whitespace. A cell holding several comma-separated names, a quoted identifier or other SQL text that the spliced statement would parse differently is not modelled.
- `CsvTransfer.DecodeRowFails`: a block without an `id` column is an error in the model. SQLite would store a NULL id, and the model has no NULL key.
- `CsvTransfer.ColumnIndex`: when a header names a column twice, the model reads the first cell. SQLite's handling of a repeated column in an INSERT column list is not modelled.
- `Images.Image`: an image without a width reads as width 0, as `x.get("width", 0)` gives. A width that is not a number would make the Python comparison raise; this is not modelled.
- `Catalog.GenresRoundTrip`: a genre that itself contains ", " splits back as several genres; the lemma requires that no genre holds ", ", and `Strings.SplitJoinSeparatorInPart` shows the case.

=== FILE: app.dfy ===
/**
 * The web layer of `app.py` that feeds the store: turning a Spotify link into
 * the records the store writes, the `/add` handler, and the type filter of
 * `/browse`. The Spotify Web API is a parameter: a snapshot of what it would
 * answer, where an id it does not know raises as the client library does.
 */
module WebApp {
  import opened Wrappers
  import opened Strings
  import opened Images
  import opened Catalog
  import Database

  // ---- what the Spotify client returns ----

  datatype ArtistRef = ArtistRef(id: string, name: string)

  datatype RemoteAlbum = RemoteAlbum(
    id: string, name: string, artists: seq<ArtistRef>, releaseDate: string, uri: string)

  /** The album summary embedded in a track. */
  datatype AlbumRef = AlbumRef(id: string, releaseDate: string)

  datatype RemoteTrack = RemoteTrack(
    id: string, name: string, artists: seq<ArtistRef>, album: AlbumRef, uri: string)

  datatype RemoteArtist = RemoteArtist(
    id: string, name: string, genres: seq<string>, uri: string,
    externalUrls: map<string, string>, images: seq<Image>)

  /** `sp.album`, `sp.track` and `sp.artist`, as lookups by id. */
  datatype Remote = Remote(
    albums: map<string, RemoteAlbum>, tracks: map<string, RemoteTrack>, artists: map<string, RemoteArtist>)

  // ---- `extract_spotify_info` ----

  /** The last "/" segment of the link, cut at the first "?". */
  function ItemId(url: string): (r: string)
    ensures '/' !in r && '?' !in r
  {
    BeforeFirst(AfterLast(url, '/'), '?')
  }

  /** The id of a link `prefix/id` or `prefix/id?query` is `id`, when the query has no "/". */
  lemma ItemIdOfLink(prefix: string, id: string, query: string)
    requires '/' !in id && '?' !in id && '/' !in query
    ensures ItemId(prefix + "/" + id) == id
    ensures ItemId(prefix + "/" + id + "?" + query) == id
  {
    assert prefix + "/" + id == prefix + ['/'] + id;
    AfterLastOfSuffix(prefix, '/', id);
    BeforeFirstWithout(id, '?');
    var tail := id + "?" + query;
    assert '/' !in tail;
    assert prefix + "/" + id + "?" + query == prefix + ['/'] + tail;
    AfterLastOfSuffix(prefix, '/', tail);
    assert tail == id + ['?'] + query;
    BeforeFirstOfPrefix(id, '?', query);
  }

  /**
   * `int(release_date.split("-")[0])`; `None` where `int` raises. The text
   * before the first "-" holds no "-", so a year is never negative, and only
   * a date that starts with a digit or "+" has a year.
   */
  function ReleaseYear(date: string): (r: Option<int>)
    ensures r.Some? ==> r.value >= 0
    ensures r.Some? ==> date != [] && (IsDigit(date[0]) || date[0] == '+')
  {
    var y := BeforeFirst(date, '-');
    assert y != [] ==> y[0] != '-' by {
      if y != [] {
        assert y[0] in y;
      }
    }
    ParseIntShape(y);
    ParseInt(y)
  }

  /** A date "YYYY-MM-DD", "YYYY-MM" or "YYYY" gives its year. */
  lemma ReleaseYearOfDate(year: nat, rest: string)
    ensures ReleaseYear(IntToString(year)) == Some(year)
    ensures ReleaseYear(IntToString(year) + "-" + rest) == Some(year)
  {
    var y := IntToString(year);
    assert '-' !in y by {
      assert AllDigits(y);
    }
    BeforeFirstWithout(y, '-');
    assert y + "-" + rest == y + ['-'] + rest;
    BeforeFirstOfPrefix(y, '-', rest);
    ParseIntToString(year);
  }

  /** The dictionary `extract_spotify_info` returns, by its "type". */
  datatype SpotifyInfo = AlbumLink(album: AlbumInfo) | TrackLink(track: TrackInfo)

  /** The `artist_info` built from `sp.artist`: its images are not copied. */
  function ArtistInfoOf(artist: RemoteArtist): ArtistInfo {
    ArtistInfo(artist.id, artist.name, artist.genres, artist.uri, artist.externalUrls, [])
  }

  /**
   * `extract_spotify_info(url)`: an album link if the URL contains "/album/",
   * else a track link if it contains "/track/", else nothing; any lookup or
   * parse that raises gives nothing.
   */
  function ExtractSpotifyInfo(url: string, remote: Remote): (r: Option<SpotifyInfo>)
    ensures r.Some? && r.value.AlbumLink? ==> Contains(url, "/album/")
    ensures r.Some? && r.value.TrackLink? ==> !Contains(url, "/album/") && Contains(url, "/track/")
    ensures r.Some? && r.value.AlbumLink? ==>
      && r.value.album.url == url
      && r.value.album.artistInfo.images == []
      && ItemId(url) in remote.albums
      && ReleaseYear(remote.albums[ItemId(url)].releaseDate) == Some(r.value.album.releaseYear)
    ensures r.Some? && r.value.TrackLink? ==>
      && r.value.track.url == url
      && r.value.track.artistInfo.images == []
      && ItemId(url) in remote.tracks
      && ReleaseYear(remote.tracks[ItemId(url)].album.releaseDate) == Some(r.value.track.releaseYear)
  {
    var itemId := ItemId(url);
    if Contains(url, "/album/") then
      if itemId !in remote.albums then None
      else
        var album := remote.albums[itemId];
        if |album.artists| == 0 || album.artists[0].id !in remote.artists then None
        else
          var artist := remote.artists[album.artists[0].id];
          match ReleaseYear(album.releaseDate)
          case None => None
          case Some(year) =>
            Some(AlbumLink(AlbumInfo(album.id, album.artists[0].id, album.name, album.artists[0].name,
                                     year, album.uri, url, ArtistInfoOf(artist))))
    else if Contains(url, "/track/") then
      if itemId !in remote.tracks then None
      else
        var track := remote.tracks[itemId];
        if |track.artists| == 0 || track.artists[0].id !in remote.artists then None
        else
          var artist := remote.artists[track.artists[0].id];
          match ReleaseYear(track.album.releaseDate)
          case None => None
          case Some(year) =>
            Some(TrackLink(TrackInfo(track.id, track.artists[0].id, track.album.id, track.name,
                                     track.artists[0].name, year, track.uri, url, ArtistInfoOf(artist))))
    else None
  }

  /**
   * When an album link yields a result: exactly when the album, its first
   * artist and a numeric release year are all available.
   */
  lemma ExtractAlbumSucceeds(url: string, remote: Remote)
    requires Contains(url, "/album/")
    ensures ExtractSpotifyInfo(url, remote).Some? <==>
      && ItemId(url) in remote.albums
      && |remote.albums[ItemId(url)].artists| > 0
      && remote.albums[ItemId(url)].artists[0].id in remote.artists
      && ReleaseYear(remote.albums[ItemId(url)].releaseDate).Some?
    ensures ExtractSpotifyInfo(url, remote).Some? ==> ExtractSpotifyInfo(url, remote).value.AlbumLink?
  {
  }

  /** The same for a track link, whose year is that of the track's album. */
  lemma ExtractTrackSucceeds(url: string, remote: Remote)
    requires !Contains(url, "/album/") && Contains(url, "/track/")
    ensures ExtractSpotifyInfo(url, remote).Some? <==>
      && ItemId(url) in remote.tracks
      && |remote.tracks[ItemId(url)].artists| > 0
      && remote.tracks[ItemId(url)].artists[0].id in remote.artists
      && ReleaseYear(remote.tracks[ItemId(url)].album.releaseDate).Some?
    ensures ExtractSpotifyInfo(url, remote).Some? ==> ExtractSpotifyInfo(url, remote).value.TrackLink?
  {
  }

  /** A link with neither "/album/" nor "/track/" yields nothing, whatever the remote holds. */
  lemma ExtractNeedsKind(url: string, remote: Remote)
    requires !Contains(url, "/album/") && !Contains(url, "/track/")
    ensures ExtractSpotifyInfo(url, remote) == None
  {
  }

  // ---- `browse` ----

  /**
   * `browse` on the query argument `type`: every item when the argument is
   * absent or "all", else the items whose `type` is the argument, in order.
   */
  function Browse(items: seq<Item>, typeArg: Option<string>): (r: seq<Item>)
    ensures typeArg.None? || typeArg == Some("all") ==> r == items
    ensures forall x | x in r :: x in items
    ensures typeArg.Some? && typeArg.value != "all" ==> forall x | x in r :: KindName(x.kind) == typeArg.value
    ensures typeArg.Some? ==> forall x | x in items && KindName(x.kind) == typeArg.value :: x in r
  {
    match typeArg
    case None => items
    case Some(filterType) => if filterType == "all" then items else KeepKind(items, filterType)
  }

  function KeepKind(items: seq<Item>, kind: string): (r: seq<Item>)
    ensures forall x | x in r :: x in items && KindName(x.kind) == kind
    ensures forall x | x in items && KindName(x.kind) == kind :: x in r
  {
    if items == [] then []
    else (if KindName(items[0].kind) == kind then [items[0]] else []) + KeepKind(items[1..], kind)
  }

  lemma {:induction false} KeepKindAppend(a: seq<Item>, b: seq<Item>, kind: string)
    ensures KeepKind(a + b, kind) == KeepKind(a, kind) + KeepKind(b, kind)
    decreases |a|
  {
    if a == [] {
      assert a + b == b;
    } else {
      assert (a + b)[0] == a[0] && (a + b)[1..] == a[1..] + b;
      KeepKindAppend(a[1..], b, kind);
    }
  }

  lemma {:induction false} KeepKindUniform(items: seq<Item>, k: ItemKind, kind: string)
    requires forall i | 0 <= i < |items| :: items[i].kind == k
    ensures KeepKind(items, kind) == if KindName(k) == kind then items else []
    decreases |items|
  {
    if items != [] {
      var rest := items[1..];
      forall i | 0 <= i < |rest| ensures rest[i].kind == k {
        assert rest[i] == items[i + 1];
      }
      KeepKindUniform(rest, k, kind);
      KeepKindCons(items, kind);
      assert items[0].kind == k;
      if KindName(k) == kind {
        assert KeepKind(items, kind) == [items[0]] + rest;
        assert items == [items[0]] + rest;
      } else {
        assert KeepKind(items, kind) == [] + [];
      }
    }
  }

  lemma KeepKindCons(items: seq<Item>, kind: string)
    requires items != []
    ensures KeepKind(items, kind) == (if KindName(items[0].kind) == kind then [items[0]] else []) + KeepKind(items[1..], kind)
  {
  }

  /**
   * On the listing of `get_all_items`, the "album" filter gives the album rows
   * in listing order, "track" the track rows, and any other type nothing.
   */
  lemma BrowseAllItems(c: Catalog, albumOrder: seq<string>, trackOrder: seq<string>, filterType: string)
    requires IsEnumeration(albumOrder, c.albums.Keys) && IsEnumeration(trackOrder, c.tracks.Keys)
    ensures var items := AllItems(c, albumOrder, trackOrder);
      && (filterType == "album" ==> Browse(items, Some(filterType)) == AlbumItems(c, albumOrder))
      && (filterType == "track" ==> Browse(items, Some(filterType)) == TrackItems(c, trackOrder))
      && (filterType != "all" && filterType != "album" && filterType != "track" ==> Browse(items, Some(filterType)) == [])
  {
    if filterType != "all" {
      KeepKindAppend(AlbumItems(c, albumOrder), TrackItems(c, trackOrder), filterType);
      KeepKindUniform(AlbumItems(c, albumOrder), AlbumKind, filterType);
      KeepKindUniform(TrackItems(c, trackOrder), TrackKind, filterType);
    }
  }

  // ---- `add_item` ----

  /** The JSON reply and its HTTP status. */
  datatype Response = Success(message: string) | Failure(status: nat, error: string)

  datatype AddOutcome = AddOutcome(db: Catalog, response: Response)

  /**
   * `add_item` on the form field `spotify_url`: the artist row is written
   * first, then the album row for an album link, otherwise the track row.
   */
  function AddItemOutcome(c: Catalog, form: Option<string>, remote: Remote): (r: AddOutcome)
    ensures r.response.Failure? ==> r.db == c
    ensures (form.None? || form.value == "") ==> r == AddOutcome(c, Failure(400, "No URL provided"))
    ensures form.Some? && form.value != "" && ExtractSpotifyInfo(form.value, remote).None? ==>
      r == AddOutcome(c, Failure(400, "Invalid Spotify URL or API error"))
  {
    if form.None? || form.value == "" then AddOutcome(c, Failure(400, "No URL provided"))
    else match ExtractSpotifyInfo(form.value, remote)
      case None => AddOutcome(c, Failure(400, "Invalid Spotify URL or API error"))
      case Some(AlbumLink(info)) =>
        AddOutcome(WithAlbum(WithArtist(c, ArtistRow(info.artistInfo)), AlbumRow(info)),
                   Success("Album '" + info.albumName + "' added successfully"))
      case Some(TrackLink(info)) =>
        AddOutcome(WithTrack(WithArtist(c, ArtistRow(info.artistInfo)), TrackRow(info)),
                   Success("Track '" + info.trackName + "' added successfully"))
  }

  /** The handler, writing to the store in the source's order. */
  method AddItem(store: Database.Store, form: Option<string>, remote: Remote) returns (response: Response)
    requires store.Valid()
    modifies store
    ensures store.Valid()
    ensures AddOutcome(store.Contents(), response) == AddItemOutcome(old(store.Contents()), form, remote)
  {
    if form.None? || form.value == "" {
      return Failure(400, "No URL provided");
    }
    var info := ExtractSpotifyInfo(form.value, remote);
    if info.None? {
      return Failure(400, "Invalid Spotify URL or API error");
    }
    match info.value {
      case AlbumLink(album) =>
        store.AddArtist(album.artistInfo);
        store.AddAlbum(album);
        response := Success("Album '" + album.albumName + "' added successfully");
      case TrackLink(track) =>
        store.AddArtist(track.artistInfo);
        store.AddTrack(track);
        response := Success("Track '" + track.trackName + "' added successfully");
    }
  }

  lemma ArtistThenAlbumTwice(c: Catalog, a: Artist, b: Album)
    ensures WithAlbum(WithArtist(WithAlbum(WithArtist(c, a), b), a), b) == WithAlbum(WithArtist(c, a), b)
  {
    var once := WithAlbum(WithArtist(c, a), b);
    var twice := WithAlbum(WithArtist(once, a), b);
    assert twice.artists == once.artists;
    assert twice.albums == once.albums;
  }

  lemma ArtistThenTrackTwice(c: Catalog, a: Artist, t: Track)
    ensures WithTrack(WithArtist(WithTrack(WithArtist(c, a), t), a), t) == WithTrack(WithArtist(c, a), t)
  {
    var once := WithTrack(WithArtist(c, a), t);
    var twice := WithTrack(WithArtist(once, a), t);
    assert twice.artists == once.artists;
    assert twice.tracks == once.tracks;
  }

  /**
   * A successful add from an album link stores the artist with an empty
   * `image_url` and the album with the submitted link verbatim as its `url`,
   * leaves Tracks alone, and adding the same link again changes nothing.
   */
  lemma AddAlbumLinkEffect(c: Catalog, url: string, remote: Remote)
    requires url != ""
    requires ExtractSpotifyInfo(url, remote).Some? && ExtractSpotifyInfo(url, remote).value.AlbumLink?
    ensures var info := ExtractSpotifyInfo(url, remote).value.album;
      var r := AddItemOutcome(c, Some(url), remote);
      && r.response == Success("Album '" + info.albumName + "' added successfully")
      && r.db.artists[info.artistInfo.artistId].imageUrl == Some("")
      && r.db.albums[info.albumId].url == Some(url)
      && r.db.tracks == c.tracks
      && AddItemOutcome(r.db, Some(url), remote).db == r.db
  {
    var info := ExtractSpotifyInfo(url, remote).value.album;
    assert ImageUrl([]) == "";
    ArtistThenAlbumTwice(c, ArtistRow(info.artistInfo), AlbumRow(info));
  }

  /**
   * A successful add from a track link stores the artist with an empty
   * `image_url` and the track with the submitted link as its `url`, creates
   * no album row, and adding the same link again changes nothing.
   */
  lemma AddTrackLinkEffect(c: Catalog, url: string, remote: Remote)
    requires url != ""
    requires ExtractSpotifyInfo(url, remote).Some? && ExtractSpotifyInfo(url, remote).value.TrackLink?
    ensures var info := ExtractSpotifyInfo(url, remote).value.track;
      var r := AddItemOutcome(c, Some(url), remote);
      && r.response == Success("Track '" + info.trackName + "' added successfully")
      && r.db.artists[info.artistInfo.artistId].imageUrl == Some("")
      && r.db.tracks[info.trackId].url == Some(url)
      && r.db.albums == c.albums
      && AddItemOutcome(r.db, Some(url), remote).db == r.db
  {
    var info := ExtractSpotifyInfo(url, remote).value.track;
    assert ImageUrl([]) == "";
    ArtistThenTrackTwice(c, ArtistRow(info.artistInfo), TrackRow(info));
  }
}

=== FILE: catalog.dfy ===
/**
 * The catalog held by `database.py`: the Artists, Albums and Tracks tables as
 * maps keyed by id, the rows `add_artist`, `add_album` and `add_track` write,
 * the integrity queries, the orphan sweep and the joined item listing.
 * Everything here is a value; the mutable store in module Database is
 * specified by these functions.
 */
module Catalog {
  import opened Wrappers
  import opened Strings
  import opened Images

  /** What SQLite holds in the INTEGER column `release_year`. */
  datatype Value = Null | Int(i: int) | Text(s: string)

  /** A row of Artists. Columns that may be NULL are `Option`s. */
  datatype Artist = Artist(
    id: string, name: string, genres: Option<string>,
    uri: Option<string>, url: Option<string>, imageUrl: Option<string>)

  /** A row of Albums. */
  datatype Album = Album(
    id: string, artistId: string, name: string, releaseYear: Value,
    uri: Option<string>, url: Option<string>)

  /** A row of Tracks. */
  datatype Track = Track(
    id: string, artistId: string, albumId: string, name: string, releaseYear: Value,
    uri: Option<string>, url: Option<string>)

  /** The three tables, each keyed by its PRIMARY KEY `id`. */
  datatype Catalog = Catalog(
    artists: map<string, Artist>, albums: map<string, Album>, tracks: map<string, Track>)

  const Empty := Catalog(map[], map[], map[])

  /** Every row sits under its own id. */
  predicate WellKeyed(c: Catalog) {
    && (forall k | k in c.artists :: c.artists[k].id == k)
    && (forall k | k in c.albums :: c.albums[k].id == k)
    && (forall k | k in c.tracks :: c.tracks[k].id == k)
  }

  // ---- the records the web layer hands to the store ----

  datatype ArtistInfo = ArtistInfo(
    artistId: string, artistName: string, genres: seq<string>, uri: string,
    externalUrls: map<string, string>, images: seq<Image>)

  datatype AlbumInfo = AlbumInfo(
    albumId: string, artistId: string, albumName: string, artistName: string,
    releaseYear: int, albumUri: string, url: string, artistInfo: ArtistInfo)

  datatype TrackInfo = TrackInfo(
    trackId: string, artistId: string, albumId: string, trackName: string,
    artistName: string, releaseYear: int, trackUri: string, url: string, artistInfo: ArtistInfo)

  /** Python's `d.get(key, default)` on a string dictionary. */
  function GetOr(m: map<string, string>, key: string, default: string): string {
    if key in m then m[key] else default
  }

  /** The genre list as stored: joined with ", ". */
  function GenresText(genres: seq<string>): string {
    Join(genres, ", ")
  }

  /** The Artists row `add_artist` writes, with its two derived columns. */
  function ArtistRow(info: ArtistInfo): (r: Artist)
    ensures r.id == info.artistId && r.name == info.artistName
    ensures r.genres.Some? && r.uri == Some(info.uri) && r.url.Some? && r.imageUrl.Some?
    ensures info.genres == [] ==> r.genres == Some("")
    ensures "spotify" !in info.externalUrls ==> r.url == Some("")
    ensures info.images == [] ==> r.imageUrl == Some("")
    ensures info.images != [] ==> exists k | 0 <= k < |info.images| :: r.imageUrl == Some(info.images[k].url)
  {
    Artist(info.artistId, info.artistName, Some(GenresText(info.genres)), Some(info.uri),
           Some(GetOr(info.externalUrls, "spotify", "")), Some(ImageUrl(info.images)))
  }

  /** The Albums row `add_album` writes: every column set, the year an integer. */
  function AlbumRow(info: AlbumInfo): (r: Album)
    ensures r.id == info.albumId && r.artistId == info.artistId && r.name == info.albumName
    ensures r.releaseYear == Int(info.releaseYear)
    ensures r.uri == Some(info.albumUri) && r.url == Some(info.url)
  {
    Album(info.albumId, info.artistId, info.albumName, Int(info.releaseYear),
          Some(info.albumUri), Some(info.url))
  }

  /** The Tracks row `add_track` writes: every column set, the year an integer. */
  function TrackRow(info: TrackInfo): (r: Track)
    ensures r.id == info.trackId && r.artistId == info.artistId && r.albumId == info.albumId
    ensures r.name == info.trackName && r.releaseYear == Int(info.releaseYear)
    ensures r.uri == Some(info.trackUri) && r.url == Some(info.url)
  {
    Track(info.trackId, info.artistId, info.albumId, info.trackName, Int(info.releaseYear),
          Some(info.trackUri), Some(info.url))
  }

  /** The stored genre text reads back, split on ", " as the web page does, as the list. */
  lemma GenresRoundTrip(genres: seq<string>)
    requires forall i | 0 <= i < |genres| :: NoCommaSpace(genres[i])
    ensures genres == [] ==> GenresText(genres) == ""
    ensures genres != [] ==> SplitCommaSpace(GenresText(genres)) == genres
  {
    if genres != [] {
      SplitJoin(genres);
    }
  }

  /**
   * The stored image URL: empty without images; else the widest image with
   * width in [200, 500], the earliest listed among equally wide ones; else the
   * widest image, again the earliest among equals.
   */
  lemma ImageUrlChoice(images: seq<Image>)
    ensures images == [] ==> ImageUrl(images) == ""
    ensures (exists i | 0 <= i < |images| :: InBand(images[i].width)) ==>
      exists k | 0 <= k < |images| ::
        && ImageUrl(images) == images[k].url
        && InBand(images[k].width)
        && (forall j | 0 <= j < |images| && InBand(images[j].width) :: images[j].width <= images[k].width)
        && (forall j | 0 <= j < k && InBand(images[j].width) :: images[j].width < images[k].width)
    ensures images != [] && (forall i | 0 <= i < |images| :: !InBand(images[i].width)) ==>
      exists k | 0 <= k < |images| ::
        && ImageUrl(images) == images[k].url
        && (forall j | 0 <= j < |images| :: images[j].width <= images[k].width)
        && (forall j | 0 <= j < k :: images[j].width < images[k].width)
  {
    if images != [] {
      var b := BestIndex(images, false);
      if b.Some? {
        assert Eligible(images[b.value], false);
      } else {
        var w := BestIndex(images, true);
        assert w.Some?;
        assert forall j | 0 <= j < |images| :: Eligible(images[j], true);
      }
    }
  }

  // ---- upserts and deletes ----

  /** `INSERT OR REPLACE INTO Artists`: the row under its id is replaced or added. */
  function WithArtist(c: Catalog, a: Artist): (r: Catalog)
    ensures r.artists.Keys == c.artists.Keys + {a.id} && r.artists[a.id] == a
    ensures forall k | k in c.artists && k != a.id :: r.artists[k] == c.artists[k]
    ensures r.albums == c.albums && r.tracks == c.tracks
  {
    c.(artists := c.artists[a.id := a])
  }

  /** `INSERT OR REPLACE INTO Albums`. */
  function WithAlbum(c: Catalog, a: Album): (r: Catalog)
    ensures r.albums.Keys == c.albums.Keys + {a.id} && r.albums[a.id] == a
    ensures forall k | k in c.albums && k != a.id :: r.albums[k] == c.albums[k]
    ensures r.artists == c.artists && r.tracks == c.tracks
  {
    c.(albums := c.albums[a.id := a])
  }

  /** `INSERT OR REPLACE INTO Tracks`. */
  function WithTrack(c: Catalog, t: Track): (r: Catalog)
    ensures r.tracks.Keys == c.tracks.Keys + {t.id} && r.tracks[t.id] == t
    ensures forall k | k in c.tracks && k != t.id :: r.tracks[k] == c.tracks[k]
    ensures r.artists == c.artists && r.albums == c.albums
  {
    c.(tracks := c.tracks[t.id := t])
  }

  /** `DELETE FROM Artists WHERE id = ?`: that row goes, nothing else changes (no cascade). */
  function WithoutArtist(c: Catalog, id: string): (r: Catalog)
    ensures r.artists.Keys == c.artists.Keys - {id}
    ensures forall k | k in r.artists :: r.artists[k] == c.artists[k]
    ensures r.albums == c.albums && r.tracks == c.tracks
  {
    c.(artists := c.artists - {id})
  }

  /** `DELETE FROM Albums WHERE id = ?`: that row goes, nothing else changes (no cascade). */
  function WithoutAlbum(c: Catalog, id: string): (r: Catalog)
    ensures r.albums.Keys == c.albums.Keys - {id}
    ensures forall k | k in r.albums :: r.albums[k] == c.albums[k]
    ensures r.artists == c.artists && r.tracks == c.tracks
  {
    c.(albums := c.albums - {id})
  }

  /** `DELETE FROM Tracks WHERE id = ?`. */
  function WithoutTrack(c: Catalog, id: string): (r: Catalog)
    ensures r.tracks.Keys == c.tracks.Keys - {id}
    ensures forall k | k in r.tracks :: r.tracks[k] == c.tracks[k]
    ensures r.artists == c.artists && r.albums == c.albums
  {
    c.(tracks := c.tracks - {id})
  }

  /**
   * `delete_item`: the Albums table for exactly the type "album", the Tracks
   * table for every other type; the remaining rows keep their values.
   */
  function WithoutItem(c: Catalog, id: string, itemType: string): (r: Catalog)
    ensures itemType == "album" ==>
      && r.albums.Keys == c.albums.Keys - {id}
      && (forall k | k in r.albums :: r.albums[k] == c.albums[k])
      && r.tracks == c.tracks
    ensures itemType != "album" ==>
      && r.tracks.Keys == c.tracks.Keys - {id}
      && (forall k | k in r.tracks :: r.tracks[k] == c.tracks[k])
      && r.albums == c.albums
    ensures r.artists == c.artists
  {
    if itemType == "album" then WithoutAlbum(c, id) else WithoutTrack(c, id)
  }

  /** Repeating an upsert changes nothing. */
  lemma UpsertIdempotent(c: Catalog, a: Artist, b: Album, t: Track)
    ensures WithArtist(WithArtist(c, a), a) == WithArtist(c, a)
    ensures WithAlbum(WithAlbum(c, b), b) == WithAlbum(c, b)
    ensures WithTrack(WithTrack(c, t), t) == WithTrack(c, t)
  {
  }

  /** Upserts keep every row under its own id. */
  lemma UpsertKeepsWellKeyed(c: Catalog, a: Artist, b: Album, t: Track)
    requires WellKeyed(c)
    ensures WellKeyed(WithArtist(c, a)) && WellKeyed(WithAlbum(c, b)) && WellKeyed(WithTrack(c, t))
  {
  }

  /** Deleting the id a fresh upsert added gives back the catalog before it. */
  lemma DeleteUndoesFreshUpsert(c: Catalog, a: Artist, b: Album, t: Track)
    ensures a.id !in c.artists ==> WithoutArtist(WithArtist(c, a), a.id) == c
    ensures b.id !in c.albums ==> WithoutAlbum(WithAlbum(c, b), b.id) == c
    ensures t.id !in c.tracks ==> WithoutTrack(WithTrack(c, t), t.id) == c
  {
    if a.id !in c.artists {
      assert WithoutArtist(WithArtist(c, a), a.id).artists == c.artists;
    }
    if b.id !in c.albums {
      assert WithoutAlbum(WithAlbum(c, b), b.id).albums == c.albums;
    }
    if t.id !in c.tracks {
      assert WithoutTrack(WithTrack(c, t), t.id).tracks == c.tracks;
    }
  }

  // ---- integrity queries ----

  /** `SELECT COUNT(*) FROM Tracks WHERE artist_id = ?`, as the set it counts. */
  function TracksByArtist(c: Catalog, artistId: string): set<string> {
    set k | k in c.tracks && c.tracks[k].artistId == artistId
  }

  function AlbumsByArtist(c: Catalog, artistId: string): set<string> {
    set k | k in c.albums && c.albums[k].artistId == artistId
  }

  function TracksOnAlbum(c: Catalog, albumId: string): set<string> {
    set k | k in c.tracks && c.tracks[k].albumId == albumId
  }

  /** `artist_has_content`: a track count or an album count above zero. */
  function ArtistHasContent(c: Catalog, artistId: string): (r: bool)
    ensures r <==>
      (exists k | k in c.tracks :: c.tracks[k].artistId == artistId) ||
      (exists k | k in c.albums :: c.albums[k].artistId == artistId)
  {
    var n := |TracksByArtist(c, artistId)|;
    var m := |AlbumsByArtist(c, artistId)|;
    assert (exists k | k in c.tracks :: c.tracks[k].artistId == artistId) ==> n > 0 by {
      if exists k | k in c.tracks :: c.tracks[k].artistId == artistId {
        var k :| k in c.tracks && c.tracks[k].artistId == artistId;
        assert k in TracksByArtist(c, artistId);
      }
    }
    assert (exists k | k in c.albums :: c.albums[k].artistId == artistId) ==> m > 0 by {
      if exists k | k in c.albums :: c.albums[k].artistId == artistId {
        var k :| k in c.albums && c.albums[k].artistId == artistId;
        assert k in AlbumsByArtist(c, artistId);
      }
    }
    n > 0 || m > 0
  }

  /** `album_has_tracks`: a track count above zero. */
  function AlbumHasTracks(c: Catalog, albumId: string): (r: bool)
    ensures r <==> exists k | k in c.tracks :: c.tracks[k].albumId == albumId
  {
    var n := |TracksOnAlbum(c, albumId)|;
    assert (exists k | k in c.tracks :: c.tracks[k].albumId == albumId) ==> n > 0 by {
      if exists k | k in c.tracks :: c.tracks[k].albumId == albumId {
        var k :| k in c.tracks && c.tracks[k].albumId == albumId;
        assert k in TracksOnAlbum(c, albumId);
      }
    }
    n > 0
  }

  /** Deleting an artist does not cascade: its albums and tracks stay and still name it. */
  lemma DeleteArtistKeepsChildren(c: Catalog, id: string)
    ensures WithoutArtist(c, id).artists == c.artists - {id}
    ensures WithoutArtist(c, id).albums == c.albums && WithoutArtist(c, id).tracks == c.tracks
    ensures ArtistHasContent(WithoutArtist(c, id), id) == ArtistHasContent(c, id)
    ensures id !in WithoutArtist(c, id).artists
  {
  }

  /** Deleting an album leaves its tracks, which still report it as having tracks. */
  lemma DeleteAlbumKeepsTracks(c: Catalog, id: string)
    ensures WithoutAlbum(c, id).albums == c.albums - {id}
    ensures WithoutAlbum(c, id).tracks == c.tracks && WithoutAlbum(c, id).artists == c.artists
    ensures AlbumHasTracks(WithoutAlbum(c, id), id) == AlbumHasTracks(c, id)
    ensures id !in WithoutAlbum(c, id).albums
  {
  }

  // ---- the orphan sweep ----

  /** The subquery of `cleanup_unused_artists`: every artist id some track or album names. */
  function ReferencedArtists(c: Catalog): set<string> {
    (set k | k in c.tracks :: c.tracks[k].artistId) + (set k | k in c.albums :: c.albums[k].artistId)
  }

  lemma ReferencedIffContent(c: Catalog, a: string)
    ensures a in ReferencedArtists(c) <==> ArtistHasContent(c, a)
  {
    if ArtistHasContent(c, a) {
      if exists k | k in c.tracks :: c.tracks[k].artistId == a {
        var k :| k in c.tracks && c.tracks[k].artistId == a;
        assert a in (set k | k in c.tracks :: c.tracks[k].artistId);
      } else {
        var k :| k in c.albums && c.albums[k].artistId == a;
        assert a in (set k | k in c.albums :: c.albums[k].artistId);
      }
    }
  }

  /**
   * The catalog after `DELETE FROM Artists WHERE id NOT IN (...)`: exactly the
   * artists without content are gone; Albums and Tracks are untouched.
   */
  function WithoutUnusedArtists(c: Catalog): (r: Catalog)
    ensures r.albums == c.albums && r.tracks == c.tracks
    ensures forall a :: a in r.artists <==> a in c.artists && ArtistHasContent(c, a)
    ensures forall a | a in r.artists :: r.artists[a] == c.artists[a]
  {
    var refs := ReferencedArtists(c);
    forall a ensures a in refs <==> ArtistHasContent(c, a) {
      ReferencedIffContent(c, a);
    }
    c.(artists := map a | a in c.artists && a in refs :: c.artists[a])
  }

  /** The artists the sweep deletes, whose number is the `rowcount` it returns. */
  function UnusedArtists(c: Catalog): set<string> {
    set a | a in c.artists && !ArtistHasContent(c, a)
  }

  /** After the sweep every remaining artist has content and a second sweep deletes nothing. */
  lemma CleanupLeavesOnlyContent(c: Catalog)
    ensures var r := WithoutUnusedArtists(c);
      && (forall a | a in r.artists :: ArtistHasContent(r, a))
      && UnusedArtists(r) == {}
      && WithoutUnusedArtists(r) == r
  {
    var r := WithoutUnusedArtists(c);
    assert forall a | a in r.artists :: ArtistHasContent(c, a);
    assert WithoutUnusedArtists(r).artists == r.artists;
  }

  /** The count the sweep returns is the number of Artists rows it deleted. */
  lemma CleanupCount(c: Catalog)
    ensures |UnusedArtists(c)| == |c.artists| - |WithoutUnusedArtists(c).artists|
  {
    var r := WithoutUnusedArtists(c);
    var gone := UnusedArtists(c);
    assert r.artists.Keys == c.artists.Keys - gone;
    DisjointSplitSize(c.artists.Keys, gone);
  }

  lemma DisjointSplitSize(all: set<string>, part: set<string>)
    requires part <= all
    ensures |all - part| == |all| - |part|
  {
    assert all == (all - part) + part;
  }

  lemma CleanupKeepsWellKeyed(c: Catalog)
    requires WellKeyed(c)
    ensures WellKeyed(WithoutUnusedArtists(c))
  {
  }

  // ---- the joined listing of `get_all_items` ----

  datatype ItemKind = AlbumKind | TrackKind

  /** The `type` column of a listed item. */
  function KindName(k: ItemKind): string {
    match k
    case AlbumKind => "album"
    case TrackKind => "track"
  }

  /** One row of `get_all_items`: the album or track joined with its artist. */
  datatype Item = Item(
    kind: ItemKind, id: string, name: string, artistName: string,
    releaseYear: Value, uri: Option<string>, url: Option<string>, genres: Option<string>)

  function AlbumItem(a: Album, ar: Artist): Item {
    Item(AlbumKind, a.id, a.name, ar.name, a.releaseYear, a.uri, a.url, ar.genres)
  }

  function TrackItem(t: Track, ar: Artist): Item {
    Item(TrackKind, t.id, t.name, ar.name, t.releaseYear, t.uri, t.url, ar.genres)
  }

  /** `order` lists each key of the set exactly once: a scan order the database may use. */
  predicate IsEnumeration(order: seq<string>, keys: set<string>) {
    && (forall i | 0 <= i < |order| :: order[i] in keys)
    && (forall k | k in keys :: k in order)
    && (forall i, j | 0 <= i < j < |order| :: order[i] != order[j])
  }

  /** The inner join of Albums with Artists, in the given album order. */
  function AlbumItems(c: Catalog, order: seq<string>): (r: seq<Item>)
    requires forall i | 0 <= i < |order| :: order[i] in c.albums
    ensures forall i | 0 <= i < |r| :: r[i].kind == AlbumKind
  {
    if order == [] then []
    else
      var a := c.albums[order[0]];
      (if a.artistId in c.artists then [AlbumItem(a, c.artists[a.artistId])] else [])
        + AlbumItems(c, order[1..])
  }

  /** The inner join of Tracks with Artists, in the given track order. */
  function TrackItems(c: Catalog, order: seq<string>): (r: seq<Item>)
    requires forall i | 0 <= i < |order| :: order[i] in c.tracks
    ensures forall i | 0 <= i < |r| :: r[i].kind == TrackKind
  {
    if order == [] then []
    else
      var t := c.tracks[order[0]];
      (if t.artistId in c.artists then [TrackItem(t, c.artists[t.artistId])] else [])
        + TrackItems(c, order[1..])
  }

  /** `get_all_items`: album rows, then track rows. */
  function AllItems(c: Catalog, albumOrder: seq<string>, trackOrder: seq<string>): (r: seq<Item>)
    requires IsEnumeration(albumOrder, c.albums.Keys) && IsEnumeration(trackOrder, c.tracks.Keys)
    ensures forall i, j | 0 <= i < j < |r| && r[j].kind == AlbumKind :: r[i].kind == AlbumKind
  {
    AlbumItems(c, albumOrder) + TrackItems(c, trackOrder)
  }

  lemma {:induction false} AlbumItemsMembers(c: Catalog, order: seq<string>)
    requires WellKeyed(c)
    requires forall i | 0 <= i < |order| :: order[i] in c.albums
    ensures forall it | it in AlbumItems(c, order) ::
      it.id in order && c.albums[it.id].artistId in c.artists &&
      it == AlbumItem(c.albums[it.id], c.artists[c.albums[it.id].artistId])
    ensures forall k | k in order && c.albums[k].artistId in c.artists ::
      AlbumItem(c.albums[k], c.artists[c.albums[k].artistId]) in AlbumItems(c, order)
    decreases |order|
  {
    if order != [] {
      AlbumItemsMembers(c, order[1..]);
      assert order == [order[0]] + order[1..];
    }
  }

  lemma {:induction false} TrackItemsMembers(c: Catalog, order: seq<string>)
    requires WellKeyed(c)
    requires forall i | 0 <= i < |order| :: order[i] in c.tracks
    ensures forall it | it in TrackItems(c, order) ::
      it.id in order && c.tracks[it.id].artistId in c.artists &&
      it == TrackItem(c.tracks[it.id], c.artists[c.tracks[it.id].artistId])
    ensures forall k | k in order && c.tracks[k].artistId in c.artists ::
      TrackItem(c.tracks[k], c.artists[c.tracks[k].artistId]) in TrackItems(c, order)
    decreases |order|
  {
    if order != [] {
      TrackItemsMembers(c, order[1..]);
      assert order == [order[0]] + order[1..];
    }
  }

  /**
   * Every album whose artist row exists is listed, and only those; likewise
   * every track; each listed item carries its row's columns and its artist's
   * name and genres.
   */
  lemma AllItemsMembers(c: Catalog, albumOrder: seq<string>, trackOrder: seq<string>)
    requires WellKeyed(c)
    requires IsEnumeration(albumOrder, c.albums.Keys) && IsEnumeration(trackOrder, c.tracks.Keys)
    ensures var r := AllItems(c, albumOrder, trackOrder);
      forall k | k in c.albums && c.albums[k].artistId in c.artists ::
        AlbumItem(c.albums[k], c.artists[c.albums[k].artistId]) in r
    ensures var r := AllItems(c, albumOrder, trackOrder);
      forall k | k in c.tracks && c.tracks[k].artistId in c.artists ::
        TrackItem(c.tracks[k], c.artists[c.tracks[k].artistId]) in r
    ensures var r := AllItems(c, albumOrder, trackOrder);
      forall it | it in r && it.kind == AlbumKind ::
        it.id in c.albums && c.albums[it.id].artistId in c.artists &&
        it == AlbumItem(c.albums[it.id], c.artists[c.albums[it.id].artistId])
    ensures var r := AllItems(c, albumOrder, trackOrder);
      forall it | it in r && it.kind == TrackKind ::
        it.id in c.tracks && c.tracks[it.id].artistId in c.artists &&
        it == TrackItem(c.tracks[it.id], c.artists[c.tracks[it.id].artistId])
  {
    AlbumItemsMembers(c, albumOrder);
    TrackItemsMembers(c, trackOrder);
  }
}

=== FILE: csv.dfy ===
/**
 * CSV export and import of `database.py`, on rows already split into cells:
 * the export's block layout, the import loop as a step function over rows,
 * `_insert_csv_data` as decode-then-upsert, and the round trip between them.
 */
module CsvTransfer {
  import opened Wrappers
  import opened Strings
  import opened Catalog

  datatype Table = ArtistsTable | AlbumsTable | TracksTable

  /** The name export writes in the table's marker row. */
  function TableName(t: Table): string {
    match t
    case ArtistsTable => "artists"
    case AlbumsTable => "albums"
    case TracksTable => "tracks"
  }

  /** Every column of the table as created, `image_url` included. */
  function Schema(t: Table): seq<string> {
    match t
    case ArtistsTable => ["id", "name", "genres", "uri", "url", "image_url"]
    case AlbumsTable => ["id", "artist_id", "name", "release_year", "uri", "url"]
    case TracksTable => ["id", "artist_id", "album_id", "name", "release_year", "uri", "url"]
  }

  /** The fixed header export writes: Artists without `image_url`. */
  function Header(t: Table): seq<string> {
    match t
    case ArtistsTable => ["id", "name", "genres", "uri", "url"]
    case AlbumsTable => Schema(AlbumsTable)
    case TracksTable => Schema(TracksTable)
  }

  /**
   * The table a marker names once it is spliced into the SQL text: the
   * surrounding whitespace is dropped and ASCII case is ignored.
   */
  function TableNamed(name: string): (r: Option<Table>)
    ensures r.Some? ==> SameIdent(Trim(name), TableName(r.value))
    ensures r.None? ==> forall t: Table :: !SameIdent(Trim(name), TableName(t))
  {
    var n := Trim(name);
    if SameIdent(n, "artists") then Some(ArtistsTable)
    else if SameIdent(n, "albums") then Some(AlbumsTable)
    else if SameIdent(n, "tracks") then Some(TracksTable)
    else None
  }

  /** The column names a header row gives the SQL text, each read without its surrounding whitespace. */
  function Names(columns: seq<string>): seq<string> {
    seq(|columns|, i requires 0 <= i < |columns| => Trim(columns[i]))
  }

  /** Why `_insert_csv_data` raises; the block is then rolled back. */
  datatype ImportError =
    | NoSuchTable(name: string)
    | NoSuchColumn(column: string)
    | NotNullMissing(column: string)
    | BindingCount(row: seq<string>)

  // ---- one row of any table ----

  datatype Record = ArtistRecord(artist: Artist) | AlbumRecord(album: Album) | TrackRecord(track: Track)

  function TableOf(r: Record): Table {
    match r
    case ArtistRecord(_) => ArtistsTable
    case AlbumRecord(_) => AlbumsTable
    case TrackRecord(_) => TracksTable
  }

  function IdOf(r: Record): string {
    match r
    case ArtistRecord(a) => a.id
    case AlbumRecord(a) => a.id
    case TrackRecord(t) => t.id
  }

  /** The row stored under `id` in table `t`, if any. */
  function Lookup(c: Catalog, t: Table, id: string): Option<Record> {
    match t
    case ArtistsTable => if id in c.artists then Some(ArtistRecord(c.artists[id])) else None
    case AlbumsTable => if id in c.albums then Some(AlbumRecord(c.albums[id])) else None
    case TracksTable => if id in c.tracks then Some(TrackRecord(c.tracks[id])) else None
  }

  /** Two catalogs that hold the same rows are the same catalog. */
  lemma LookupExtensional(x: Catalog, y: Catalog)
    requires forall t, id :: Lookup(x, t, id) == Lookup(y, t, id)
    ensures x == y
  {
    forall id ensures id in x.artists <==> id in y.artists {
      assert Lookup(x, ArtistsTable, id) == Lookup(y, ArtistsTable, id);
    }
    forall id | id in x.artists ensures x.artists[id] == y.artists[id] {
      assert Lookup(x, ArtistsTable, id) == Lookup(y, ArtistsTable, id);
    }
    forall id ensures id in x.albums <==> id in y.albums {
      assert Lookup(x, AlbumsTable, id) == Lookup(y, AlbumsTable, id);
    }
    forall id | id in x.albums ensures x.albums[id] == y.albums[id] {
      assert Lookup(x, AlbumsTable, id) == Lookup(y, AlbumsTable, id);
    }
    forall id ensures id in x.tracks <==> id in y.tracks {
      assert Lookup(x, TracksTable, id) == Lookup(y, TracksTable, id);
    }
    forall id | id in x.tracks ensures x.tracks[id] == y.tracks[id] {
      assert Lookup(x, TracksTable, id) == Lookup(y, TracksTable, id);
    }
  }

  /** One `INSERT OR REPLACE` of a decoded row. */
  function UpsertRecord(c: Catalog, r: Record): Catalog {
    match r
    case ArtistRecord(a) => WithArtist(c, a)
    case AlbumRecord(a) => WithAlbum(c, a)
    case TrackRecord(t) => WithTrack(c, t)
  }

  /** `executemany` of `INSERT OR REPLACE`: the rows in order, without clearing the table. */
  function UpsertAll(c: Catalog, recs: seq<Record>): Catalog
    decreases |recs|
  {
    if recs == [] then c else UpsertRecord(UpsertAll(c, recs[..|recs| - 1]), recs[|recs| - 1])
  }

  /** The last of `recs` that belongs under `id` in table `t`. */
  function LastWith(recs: seq<Record>, t: Table, id: string): (r: Option<Record>)
    ensures r.Some? ==> r.value in recs && TableOf(r.value) == t && IdOf(r.value) == id
    decreases |recs|
  {
    if recs == [] then None
    else if TableOf(recs[|recs| - 1]) == t && IdOf(recs[|recs| - 1]) == id then Some(recs[|recs| - 1])
    else LastWith(recs[..|recs| - 1], t, id)
  }

  /**
   * A block's upserts: each key ends with the last row the block gives it, and
   * a key the block does not mention keeps the row it had (the table is not
   * cleared first).
   */
  lemma {:induction false} UpsertAllLookup(c: Catalog, recs: seq<Record>, t: Table, id: string)
    ensures Lookup(UpsertAll(c, recs), t, id) ==
      match LastWith(recs, t, id)
      case Some(r) => Some(r)
      case None => Lookup(c, t, id)
    decreases |recs|
  {
    if recs != [] {
      UpsertAllLookup(c, recs[..|recs| - 1], t, id);
      UpsertRecordLookup(UpsertAll(c, recs[..|recs| - 1]), recs[|recs| - 1], t, id);
    }
  }

  /** One upsert replaces or adds exactly the row under its own table and id. */
  lemma UpsertRecordLookup(c: Catalog, r: Record, t: Table, id: string)
    ensures Lookup(UpsertRecord(c, r), t, id) ==
      if TableOf(r) == t && IdOf(r) == id then Some(r) else Lookup(c, t, id)
  {
  }

  lemma UpsertAllKeepsWellKeyed(c: Catalog, recs: seq<Record>)
    requires WellKeyed(c)
    ensures WellKeyed(UpsertAll(c, recs))
    decreases |recs|
  {
    if recs != [] {
      UpsertAllKeepsWellKeyed(c, recs[..|recs| - 1]);
    }
  }

  // ---- decoding one block of `_insert_csv_data` ----

  /** Position of the first header naming `col`. */
  function ColumnIndex(headers: seq<string>, col: string): (r: Option<nat>)
    ensures r.Some? ==> r.value < |headers| && SameIdent(headers[r.value], col)
    ensures r.Some? ==> forall j | 0 <= j < r.value :: !SameIdent(headers[j], col)
    ensures r.None? ==> forall j | 0 <= j < |headers| :: !SameIdent(headers[j], col)
  {
    if headers == [] then None
    else if SameIdent(headers[0], col) then Some(0)
    else match ColumnIndex(headers[1..], col)
      case Some(k) => Some(k + 1)
      case None => None
  }

  /** A header that names no column of the table, if there is one. */
  function UnknownColumn(t: Table, headers: seq<string>): (r: Option<string>)
    ensures r.None? <==> forall i | 0 <= i < |headers| :: ColumnIndex(Schema(t), headers[i]).Some?
  {
    if headers == [] then None
    else if ColumnIndex(Schema(t), headers[0]).None? then Some(headers[0])
    else
      var r := UnknownColumn(t, headers[1..]);
      assert forall i | 1 <= i < |headers| :: headers[i] == headers[1..][i - 1];
      r
  }

  /** The cell under `col`, or NULL when the header does not name it. */
  function CellOf(headers: seq<string>, row: seq<string>, col: string): Option<string>
    requires |row| == |headers|
  {
    match ColumnIndex(headers, col)
    case Some(k) => Some(row[k])
    case None => None
  }

  /** A NOT NULL column (and the key) must be named by the header. */
  function Required(headers: seq<string>, row: seq<string>, col: string): Result<string, ImportError>
    requires |row| == |headers|
  {
    match CellOf(headers, row, col)
    case Some(v) => Ok(v)
    case None => Err(NotNullMissing(col))
  }

  /** SQLite's INTEGER affinity: text that reads as an integer is stored as one. */
  function YearCell(cell: Option<string>): Value {
    match cell
    case None => Null
    case Some(s) => match ParseInt(s)
      case Some(n) => Int(n)
      case None => Text(s)
  }

  /** A missing cell stores NULL, a cell that reads as an integer that integer, any other cell its text. */
  lemma YearCellStores(cell: Option<string>)
    ensures YearCell(cell).Null? <==> cell.None?
    ensures YearCell(cell).Int? ==> cell.Some? && ParseInt(cell.value) == Some(YearCell(cell).i)
    ensures YearCell(cell).Text? ==> cell == Some(YearCell(cell).s) && ParseInt(YearCell(cell).s).None?
  {
  }

  /** One data row as a row of table `t`. */
  function DecodeRow(t: Table, headers: seq<string>, row: seq<string>): (r: Result<Record, ImportError>)
    requires |row| == |headers|
    ensures r.Ok? ==> TableOf(r.value) == t
  {
    var id :- Required(headers, row, "id");
    var name :- Required(headers, row, "name");
    match t
    case ArtistsTable =>
      Ok(ArtistRecord(Artist(id, name, CellOf(headers, row, "genres"), CellOf(headers, row, "uri"),
                             CellOf(headers, row, "url"), CellOf(headers, row, "image_url"))))
    case AlbumsTable =>
      var artistId :- Required(headers, row, "artist_id");
      Ok(AlbumRecord(Album(id, artistId, name, YearCell(CellOf(headers, row, "release_year")),
                           CellOf(headers, row, "uri"), CellOf(headers, row, "url"))))
    case TracksTable =>
      var artistId :- Required(headers, row, "artist_id");
      var albumId :- Required(headers, row, "album_id");
      Ok(TrackRecord(Track(id, artistId, albumId, name, YearCell(CellOf(headers, row, "release_year")),
                           CellOf(headers, row, "uri"), CellOf(headers, row, "url"))))
  }

  /** The columns declared NOT NULL, and the key, of each table. */
  function RequiredColumns(t: Table): seq<string> {
    match t
    case ArtistsTable => ["id", "name"]
    case AlbumsTable => ["id", "name", "artist_id"]
    case TracksTable => ["id", "name", "artist_id", "album_id"]
  }

  /**
   * A row that decodes stores in every column the cell under its header (NULL
   * where the header does not name it), the key included, and in
   * `release_year` that cell as INTEGER affinity reads it.
   */
  lemma DecodeRowCells(t: Table, headers: seq<string>, row: seq<string>)
    requires |row| == |headers|
    ensures DecodeRow(t, headers, row).Ok? ==>
      && TableOf(DecodeRow(t, headers, row).value) == t
      && CellOf(headers, row, "id") == Some(IdOf(DecodeRow(t, headers, row).value))
    ensures DecodeRow(t, headers, row).Ok? && t == ArtistsTable ==>
      var a := DecodeRow(t, headers, row).value.artist;
      && CellOf(headers, row, "name") == Some(a.name)
      && a.genres == CellOf(headers, row, "genres") && a.uri == CellOf(headers, row, "uri")
      && a.url == CellOf(headers, row, "url") && a.imageUrl == CellOf(headers, row, "image_url")
    ensures DecodeRow(t, headers, row).Ok? && t == AlbumsTable ==>
      var a := DecodeRow(t, headers, row).value.album;
      && CellOf(headers, row, "name") == Some(a.name) && CellOf(headers, row, "artist_id") == Some(a.artistId)
      && a.releaseYear == YearCell(CellOf(headers, row, "release_year"))
      && a.uri == CellOf(headers, row, "uri") && a.url == CellOf(headers, row, "url")
    ensures DecodeRow(t, headers, row).Ok? && t == TracksTable ==>
      var a := DecodeRow(t, headers, row).value.track;
      && CellOf(headers, row, "name") == Some(a.name) && CellOf(headers, row, "artist_id") == Some(a.artistId)
      && CellOf(headers, row, "album_id") == Some(a.albumId)
      && a.releaseYear == YearCell(CellOf(headers, row, "release_year"))
      && a.uri == CellOf(headers, row, "uri") && a.url == CellOf(headers, row, "url")
  {
  }

  /** A row fails exactly when the header lacks a NOT NULL column or the key, and the error names one. */
  lemma DecodeRowFails(t: Table, headers: seq<string>, row: seq<string>)
    requires |row| == |headers|
    ensures DecodeRow(t, headers, row).Err? <==>
      || ColumnIndex(headers, "id").None? || ColumnIndex(headers, "name").None?
      || (t != ArtistsTable && ColumnIndex(headers, "artist_id").None?)
      || (t == TracksTable && ColumnIndex(headers, "album_id").None?)
    ensures DecodeRow(t, headers, row).Err? ==>
      && DecodeRow(t, headers, row).error.NotNullMissing?
      && DecodeRow(t, headers, row).error.column in RequiredColumns(t)
      && ColumnIndex(headers, DecodeRow(t, headers, row).error.column).None?
  {
  }

  function DecodeRows(t: Table, headers: seq<string>, data: seq<seq<string>>): (r: Result<seq<Record>, ImportError>)
    ensures r.Ok? ==> |r.value| == |data|
    ensures r.Ok? ==> forall i | 0 <= i < |data| :: |data[i]| == |headers| && DecodeRow(t, headers, data[i]) == Ok(r.value[i])
  {
    if data == [] then Ok([])
    else if |data[0]| != |headers| then Err(BindingCount(data[0]))
    else match DecodeRow(t, headers, data[0])
      case Err(e) => Err(e)
      case Ok(rec) =>
        match DecodeRows(t, headers, data[1..])
        case Err(e) => Err(e)
        case Ok(rest) =>
          assert forall i | 1 <= i < |data| :: data[i] == data[1..][i - 1] && ([rec] + rest)[i] == rest[i - 1];
          Ok([rec] + rest)
  }

  /**
   * `_insert_csv_data(table, columns, data)`: the whole block is upserted, or
   * nothing is (the failing block's transaction is rolled back).
   */
  function InsertBlock(c: Catalog, table: string, columns: seq<string>, data: seq<seq<string>>): Result<Catalog, ImportError> {
    match TableNamed(table)
    case None => Err(NoSuchTable(table))
    case Some(t) =>
      var names := Names(columns);
      match UnknownColumn(t, names)
      case Some(col) => Err(NoSuchColumn(col))
      case None =>
        var recs :- DecodeRows(t, names, data);
        Ok(UpsertAll(c, recs))
  }

  /**
   * An unknown table fails. A block that is stored decodes every data row, and
   * each row's `id` cell then holds the last data row carrying that id (a
   * later duplicate replaces an earlier one); the other tables stay as they
   * were, no key is removed, and an empty block changes nothing.
   */
  lemma InsertBlockEffect(c: Catalog, table: string, columns: seq<string>, data: seq<seq<string>>)
    ensures TableNamed(table).None? ==> InsertBlock(c, table, columns, data) == Err(NoSuchTable(table))
    ensures InsertBlock(c, table, columns, data).Ok? ==>
      DecodeRows(TableNamed(table).value, Names(columns), data).Ok?
    ensures InsertBlock(c, table, columns, data).Ok? ==>
      var recs := DecodeRows(TableNamed(table).value, Names(columns), data).value;
      forall i | 0 <= i < |data| :: CellOf(Names(columns), data[i], "id") == Some(IdOf(recs[i]))
    ensures InsertBlock(c, table, columns, data).Ok? ==>
      var recs := DecodeRows(TableNamed(table).value, Names(columns), data).value;
      forall i | 0 <= i < |data| ::
        Lookup(InsertBlock(c, table, columns, data).value, TableNamed(table).value, IdOf(recs[i])) ==
          Some(recs[LastSameId(Names(columns), data, i)])
    ensures InsertBlock(c, table, columns, data).Ok? ==>
      forall u, id | u != TableNamed(table).value ::
        Lookup(InsertBlock(c, table, columns, data).value, u, id) == Lookup(c, u, id)
    ensures InsertBlock(c, table, columns, data).Ok? ==>
      forall u, id | Lookup(c, u, id).Some? :: Lookup(InsertBlock(c, table, columns, data).value, u, id).Some?
    ensures InsertBlock(c, table, columns, data).Ok? && data == [] ==> InsertBlock(c, table, columns, data).value == c
  {
    if InsertBlock(c, table, columns, data).Ok? {
      var t := TableNamed(table).value;
      var h := Names(columns);
      var recs := DecodeRows(t, h, data).value;
      assert |h| == |columns|;
      UpsertAllFrame(c, recs, t);
      DecodedIds(t, h, data, recs);
      DecodedBlockStored(c, t, h, data, recs);
    }
  }

  /** The last data row, from row `i` on, whose `id` cell is row `i`'s. */
  function LastSameId(h: seq<string>, data: seq<seq<string>>, i: nat): (j: nat)
    requires i < |data| && forall k | 0 <= k < |data| :: |data[k]| == |h|
    ensures i <= j < |data| && CellOf(h, data[j], "id") == CellOf(h, data[i], "id")
    ensures forall k | j < k < |data| :: CellOf(h, data[k], "id") != CellOf(h, data[i], "id")
    decreases |data|
  {
    var n := |data| - 1;
    if n == i || CellOf(h, data[n], "id") == CellOf(h, data[i], "id") then n
    else
      var j := LastSameId(h, data[..n], i);
      assert forall k | 0 <= k < n :: data[..n][k] == data[k];
      j
  }

  /** After the upserts, the key of each decoded row holds the last row with the same `id` cell. */
  lemma DecodedBlockStored(c: Catalog, t: Table, h: seq<string>, data: seq<seq<string>>, recs: seq<Record>)
    requires |recs| == |data|
    requires forall k | 0 <= k < |data| :: |data[k]| == |h|
    requires forall k | 0 <= k < |data| :: CellOf(h, data[k], "id") == Some(IdOf(recs[k])) && TableOf(recs[k]) == t
    ensures forall i | 0 <= i < |data| :: Lookup(UpsertAll(c, recs), t, IdOf(recs[i])) == Some(recs[LastSameId(h, data, i)])
  {
    forall i | 0 <= i < |data|
      ensures Lookup(UpsertAll(c, recs), t, IdOf(recs[i])) == Some(recs[LastSameId(h, data, i)])
    {
      var id := IdOf(recs[i]);
      var j := LastWithAt(recs, t, id, i);
      var l := LastSameId(h, data, i);
      UpsertAllLookup(c, recs, t, id);
      assert CellOf(h, data[j], "id") == Some(id);
      assert IdOf(recs[l]) == id;
      assert j == l;
    }
  }

  /** The `id` cell of each decoded row is its record's key, in the block's table. */
  lemma DecodedIds(t: Table, h: seq<string>, data: seq<seq<string>>, recs: seq<Record>)
    requires |recs| == |data|
    requires forall i | 0 <= i < |data| :: |data[i]| == |h| && DecodeRow(t, h, data[i]) == Ok(recs[i])
    ensures forall k | 0 <= k < |data| :: CellOf(h, data[k], "id") == Some(IdOf(recs[k])) && TableOf(recs[k]) == t
  {
    forall k | 0 <= k < |data|
      ensures CellOf(h, data[k], "id") == Some(IdOf(recs[k])) && TableOf(recs[k]) == t
    {
      DecodeRowCells(t, h, data[k]);
    }
  }

  /** When record `i` belongs under `id`, the last such record is at or after `i`, and none follows it. */
  lemma {:induction false} LastWithAt(recs: seq<Record>, t: Table, id: string, i: nat) returns (j: nat)
    requires i < |recs| && TableOf(recs[i]) == t && IdOf(recs[i]) == id
    ensures i <= j < |recs| && LastWith(recs, t, id) == Some(recs[j])
    ensures forall k | j < k < |recs| :: !(TableOf(recs[k]) == t && IdOf(recs[k]) == id)
    decreases |recs|
  {
    var n := |recs| - 1;
    if TableOf(recs[n]) == t && IdOf(recs[n]) == id {
      j := n;
    } else {
      var front := recs[..n];
      j := LastWithAt(front, t, id, i);
      assert recs[j] == front[j];
      assert forall k | j < k < n :: recs[k] == front[k];
    }
  }

  /** A block of rows of table `t` leaves the other tables alone and removes no key. */
  lemma UpsertAllFrame(c: Catalog, recs: seq<Record>, t: Table)
    requires forall i | 0 <= i < |recs| :: TableOf(recs[i]) == t
    ensures forall u, id | u != t :: Lookup(UpsertAll(c, recs), u, id) == Lookup(c, u, id)
    ensures forall u, id | Lookup(c, u, id).Some? :: Lookup(UpsertAll(c, recs), u, id).Some?
    ensures recs == [] ==> UpsertAll(c, recs) == c
  {
    forall u, id
      ensures u != t ==> Lookup(UpsertAll(c, recs), u, id) == Lookup(c, u, id)
      ensures Lookup(c, u, id).Some? ==> Lookup(UpsertAll(c, recs), u, id).Some?
    {
      UpsertAllLookup(c, recs, u, id);
      if u != t {
        LastWithAbsent(recs, u, id);
      }
    }
  }

  // ---- the loop of `import_database_csv` ----

  /** A marker row's first cell: starts with "[" and ends with "]". */
  predicate IsMarker(cell: string) {
    |cell| >= 1 && cell[0] == '[' && cell[|cell| - 1] == ']'
  }

  function MarkerName(cell: string): string
    requires IsMarker(cell)
  {
    cell[1..|cell| - 1]
  }

  /** The loop's variables (`current_table`, `headers`, `data`), the database, and whether it has raised. */
  datatype ScanState = ScanState(
    db: Catalog, current: Option<string>, headers: seq<string>, data: seq<seq<string>>,
    failure: Option<ImportError>)

  function Init(db: Catalog): ScanState {
    ScanState(db, None, [], [], None)
  }

  /** Python's `if current_table and data`: a non-empty name and buffered rows. */
  predicate Pending(s: ScanState) {
    s.current.Some? && s.current.value != "" && s.data != []
  }

  /** One pass of the loop body. */
  function Step(s: ScanState, row: seq<string>): ScanState {
    if s.failure.Some? || row == [] then s
    else if IsMarker(row[0]) then
      if Pending(s) then
        match InsertBlock(s.db, s.current.value, s.headers, s.data)
        case Err(e) => s.(failure := Some(e))
        case Ok(db) => ScanState(db, Some(MarkerName(row[0])), [], [], None)
      else
        s.(current := Some(MarkerName(row[0])), headers := [])
    else if s.headers == [] then s.(headers := row)
    else s.(data := s.data + [row])
  }

  function Run(s: ScanState, rows: seq<seq<string>>): ScanState
    decreases |rows|
  {
    if rows == [] then s else Run(Step(s, rows[0]), rows[1..])
  }

  /** The flush after the loop. */
  function Finish(s: ScanState): ScanState {
    if s.failure.None? && Pending(s) then
      match InsertBlock(s.db, s.current.value, s.headers, s.data)
      case Err(e) => s.(failure := Some(e))
      case Ok(db) => s.(db := db)
    else s
  }

  /**
   * Nothing changes once the import has raised or on an empty row, and the
   * database changes, or the import raises, only when a marker arrives while
   * a block is pending, as that block's insert says. A marker flushes the
   * pending block and starts a new one with no header and no rows; any other
   * row becomes the header if there is none yet, or else a data row.
   */
  lemma StepEffect(s: ScanState, row: seq<string>)
    ensures s.failure.Some? || row == [] ==> Step(s, row) == s
    ensures s.failure.None? && Step(s, row).failure.Some? ==>
      && row != [] && IsMarker(row[0]) && Pending(s) && Step(s, row).db == s.db
      && InsertBlock(s.db, s.current.value, s.headers, s.data) == Err(Step(s, row).failure.value)
    ensures Step(s, row).db != s.db ==>
      && row != [] && IsMarker(row[0]) && Pending(s)
      && InsertBlock(s.db, s.current.value, s.headers, s.data) == Ok(Step(s, row).db)
    ensures s.failure.None? && row != [] && IsMarker(row[0]) && Pending(s) ==>
      match InsertBlock(s.db, s.current.value, s.headers, s.data)
      case Ok(db) => Step(s, row) == ScanState(db, Some(MarkerName(row[0])), [], [], None)
      case Err(e) => Step(s, row) == s.(failure := Some(e))
    ensures s.failure.None? && row != [] && IsMarker(row[0]) && !Pending(s) ==>
      Step(s, row) == s.(current := Some(MarkerName(row[0])), headers := [])
    ensures s.failure.None? && row != [] && !IsMarker(row[0]) ==>
      Step(s, row) == if s.headers == [] then s.(headers := row) else s.(data := s.data + [row])
  {
  }

  /**
   * The flush after the loop inserts the pending block, if any, and changes
   * nothing else: like the source, it leaves the block's rows in place.
   */
  lemma FinishEffect(s: ScanState)
    ensures s.failure.Some? || !Pending(s) ==> Finish(s) == s
    ensures s.failure.None? && Finish(s).failure.Some? ==>
      && Pending(s) && Finish(s).db == s.db
      && InsertBlock(s.db, s.current.value, s.headers, s.data) == Err(Finish(s).failure.value)
    ensures Finish(s).db != s.db ==> Pending(s) && InsertBlock(s.db, s.current.value, s.headers, s.data) == Ok(Finish(s).db)
    ensures s.failure.None? && Pending(s) ==>
      match InsertBlock(s.db, s.current.value, s.headers, s.data)
      case Ok(db) => Finish(s) == s.(db := db)
      case Err(e) => Finish(s) == s.(failure := Some(e))
  {
  }

  /** What an import leaves behind: the database, and the error it raised if any. */
  datatype ImportResult = ImportResult(db: Catalog, failure: Option<ImportError>)

  function Resume(s: ScanState, rows: seq<seq<string>>): ImportResult {
    var f := Finish(Run(s, rows));
    ImportResult(f.db, f.failure)
  }

  /**
   * `import_database_csv` on the rows of a file. It never removes a row, and
   * an empty file changes nothing.
   */
  function ImportCsv(db: Catalog, rows: seq<seq<string>>): (r: ImportResult)
    ensures forall t, id | Lookup(db, t, id).Some? :: Lookup(r.db, t, id).Some?
    ensures rows == [] ==> r == ImportResult(db, None)
  {
    ResumeKeepsRows(Init(db), rows);
    Resume(Init(db), rows)
  }

  lemma {:induction false} RunAppend(s: ScanState, a: seq<seq<string>>, b: seq<seq<string>>)
    ensures Run(s, a + b) == Run(Run(s, a), b)
    decreases |a|
  {
    if a != [] {
      assert (a + b)[0] == a[0] && (a + b)[1..] == a[1..] + b;
      RunAppend(Step(s, a[0]), a[1..], b);
    } else {
      assert a + b == b;
    }
  }

  /** Once a block has raised, the remaining rows are not read. */
  lemma {:induction false} RunAfterFailure(s: ScanState, rows: seq<seq<string>>)
    requires s.failure.Some?
    ensures Run(s, rows) == s
    decreases |rows|
  {
    if rows != [] {
      RunAfterFailure(s, rows[1..]);
    }
  }

  /** Empty rows are skipped: removing one changes nothing. */
  lemma ImportSkipsEmptyRows(db: Catalog, a: seq<seq<string>>, b: seq<seq<string>>)
    ensures ImportCsv(db, a + [[]] + b) == ImportCsv(db, a + b)
  {
    RunAppend(Init(db), a + [[]], b);
    RunAppend(Init(db), a, [[]]);
    RunAppend(Init(db), a, b);
  }

  /** No step, and no flush, deletes a row: the import only adds or replaces. */
  lemma StepKeepsRows(s: ScanState, row: seq<string>, t: Table, id: string)
    requires Lookup(s.db, t, id).Some?
    ensures Lookup(Step(s, row).db, t, id).Some?
    ensures Lookup(Finish(s).db, t, id).Some?
  {
    if s.failure.None? && Pending(s) && InsertBlock(s.db, s.current.value, s.headers, s.data).Ok? {
      var u := TableNamed(s.current.value).value;
      UpsertAllFrame(s.db, DecodeRows(u, Names(s.headers), s.data).value, u);
    }
  }

  lemma {:induction false} RunKeepsRows(s: ScanState, rows: seq<seq<string>>, t: Table, id: string)
    requires Lookup(s.db, t, id).Some?
    ensures Lookup(Run(s, rows).db, t, id).Some?
    decreases |rows|
  {
    if rows != [] {
      StepKeepsRows(s, rows[0], t, id);
      RunKeepsRows(Step(s, rows[0]), rows[1..], t, id);
    }
  }

  lemma ResumeKeepsRows(s: ScanState, rows: seq<seq<string>>)
    ensures forall t, id | Lookup(s.db, t, id).Some? :: Lookup(Resume(s, rows).db, t, id).Some?
  {
    forall t, id | Lookup(s.db, t, id).Some? ensures Lookup(Resume(s, rows).db, t, id).Some? {
      RunKeepsRows(s, rows, t, id);
      StepKeepsRows(Run(s, rows), [], t, id);
    }
  }

  /**
   * Import never removes a row, whether it succeeds or raises; and a block
   * committed while reading `a` survives whatever follows in `b`.
   */
  lemma ImportNeverDeletes(db: Catalog, a: seq<seq<string>>, b: seq<seq<string>>, t: Table, id: string)
    ensures Lookup(db, t, id).Some? ==> Lookup(ImportCsv(db, a + b).db, t, id).Some?
    ensures Lookup(Run(Init(db), a).db, t, id).Some? ==> Lookup(ImportCsv(db, a + b).db, t, id).Some?
  {
    RunAppend(Init(db), a, b);
    if Lookup(db, t, id).Some? {
      RunKeepsRows(Init(db), a, t, id);
    }
    var s := Run(Init(db), a);
    if Lookup(s.db, t, id).Some? {
      RunKeepsRows(s, b, t, id);
      StepKeepsRows(Run(s, b), [], t, id);
    }
  }

  /**
   * The data buffer is emptied only by a flush: rows read before the first
   * marker are kept and land in the first table's block.
   */
  lemma StrayRowsJoinFirstBlock(db: Catalog, h: seq<string>, d: seq<string>, name: string, h2: seq<string>)
    requires h != [] && !IsMarker(h[0])
    requires d != [] && !IsMarker(d[0])
    requires h2 != [] && !IsMarker(h2[0])
    ensures Run(Init(db), [h, d, ["[" + name + "]"], h2]) == ScanState(db, Some(name), h2, [d], None)
  {
    var m := "[" + name + "]";
    assert IsMarker(m) && MarkerName(m) == name;
    var s1 := Step(Init(db), h);
    assert s1 == ScanState(db, None, h, [], None);
    var s2 := Step(s1, d);
    assert s2 == ScanState(db, None, h, [d], None);
    var s3 := Step(s2, [m]);
    assert s3 == ScanState(db, Some(name), [], [d], None);
    var s4 := Step(s3, h2);
    assert Run(s3, [h2]) == s4 by { assert [h2][1..] == []; }
    assert Run(s2, [[m], h2]) == s4 by { assert [[m], h2][1..] == [h2]; }
    assert Run(s1, [d, [m], h2]) == s4 by { assert [d, [m], h2][1..] == [[m], h2]; }
    assert [h, d, [m], h2][1..] == [d, [m], h2];
  }

  /** A "[]" marker names the empty table, whose block is never flushed. */
  lemma EmptyNameBlockIsDropped(db: Catalog, h: seq<string>, d: seq<string>)
    requires h != [] && !IsMarker(h[0])
    requires d != [] && !IsMarker(d[0])
    ensures ImportCsv(db, [["[]"], h, d]) == ImportResult(db, None)
  {
    assert IsMarker("[]") && MarkerName("[]") == "";
    var s1 := Step(Init(db), ["[]"]);
    assert s1 == ScanState(db, Some(""), [], [], None);
    var s2 := Step(s1, h);
    var s3 := Step(s2, d);
    assert s3 == ScanState(db, Some(""), h, [d], None);
    assert Run(s2, [d]) == s3 by { assert [d][1..] == []; }
    assert Run(s1, [h, d]) == s3 by { assert [h, d][1..] == [d]; }
    assert [["[]"], h, d][1..] == [h, d];
  }

  /**
   * A "[]" marker followed by a named one: its buffered rows are never
   * flushed under the empty name and join the next table's block instead.
   */
  lemma EmptyNameRowsJoinNextBlock(db: Catalog, h: seq<string>, d: seq<string>, name: string, h2: seq<string>)
    requires h != [] && !IsMarker(h[0])
    requires d != [] && !IsMarker(d[0])
    requires h2 != [] && !IsMarker(h2[0])
    ensures Run(Init(db), [["[]"], h, d, ["[" + name + "]"], h2]) == ScanState(db, Some(name), h2, [d], None)
  {
    var m := "[" + name + "]";
    assert IsMarker("[]") && MarkerName("[]") == "";
    assert IsMarker(m) && MarkerName(m) == name;
    var s1 := Step(Init(db), ["[]"]);
    assert s1 == ScanState(db, Some(""), [], [], None);
    var s2 := Step(s1, h);
    assert s2 == ScanState(db, Some(""), h, [], None);
    var s3 := Step(s2, d);
    assert s3 == ScanState(db, Some(""), h, [d], None);
    var s4 := Step(s3, [m]);
    assert s4 == ScanState(db, Some(name), [], [d], None);
    var s5 := Step(s4, h2);
    assert Run(s4, [h2]) == s5 by { assert [h2][1..] == []; }
    assert Run(s3, [[m], h2]) == s5 by { assert [[m], h2][1..] == [h2]; }
    assert Run(s2, [d, [m], h2]) == s5 by { assert [d, [m], h2][1..] == [[m], h2]; }
    assert Run(s1, [h, d, [m], h2]) == s5 by { assert [h, d, [m], h2][1..] == [d, [m], h2]; }
    assert [["[]"], h, d, [m], h2][1..] == [h, d, [m], h2];
  }

  // ---- `export_database_csv` ----

  function FormatText(v: Option<string>): string {
    match v
    case None => ""
    case Some(s) => s
  }

  function FormatValue(v: Value): string {
    match v
    case Null => ""
    case Int(n) => IntToString(n)
    case Text(s) => s
  }

  /** The exported cells of a row, in header order. */
  function Fields(r: Record): seq<string> {
    match r
    case ArtistRecord(a) => [a.id, a.name, FormatText(a.genres), FormatText(a.uri), FormatText(a.url)]
    case AlbumRecord(a) =>
      [a.id, a.artistId, a.name, FormatValue(a.releaseYear), FormatText(a.uri), FormatText(a.url)]
    case TrackRecord(t) =>
      [t.id, t.artistId, t.albumId, t.name, FormatValue(t.releaseYear), FormatText(t.uri), FormatText(t.url)]
  }

  /** One data row per key of `order`, as wide as the header, starting with the row's id. */
  function ExportData(c: Catalog, t: Table, order: seq<string>): (r: seq<seq<string>>)
    requires forall i | 0 <= i < |order| :: Lookup(c, t, order[i]).Some?
    ensures |r| == |order|
    ensures forall i | 0 <= i < |order| ::
      |r[i]| == |Header(t)| && r[i][0] == IdOf(Lookup(c, t, order[i]).value)
  {
    seq(|order|, i requires 0 <= i < |order| => Fields(Lookup(c, t, order[i]).value))
  }

  /** A marker row, the header row, the data rows and an empty row. */
  function Block(t: Table, data: seq<seq<string>>): seq<seq<string>> {
    [["[" + TableName(t) + "]"], Header(t)] + data + [[]]
  }

  /** The rows `export_database_csv` writes, each table read in the given order. */
  function ExportRows(c: Catalog, artistOrder: seq<string>, albumOrder: seq<string>, trackOrder: seq<string>): seq<seq<string>>
    requires IsEnumeration(artistOrder, c.artists.Keys)
    requires IsEnumeration(albumOrder, c.albums.Keys)
    requires IsEnumeration(trackOrder, c.tracks.Keys)
  {
    Block(ArtistsTable, ExportData(c, ArtistsTable, artistOrder))
      + Block(AlbumsTable, ExportData(c, AlbumsTable, albumOrder))
      + Block(TracksTable, ExportData(c, TracksTable, trackOrder))
  }

  /**
   * A block is its marker row, which the import reads back as table `t`, the
   * header, the data rows and a closing empty row.
   */
  lemma BlockLayout(t: Table, data: seq<seq<string>>)
    ensures var r := Block(t, data);
      && |r| == |data| + 3 && r[2..|r| - 1] == data
      && |r[0]| == 1 && IsMarker(r[0][0]) && TableNamed(MarkerName(r[0][0])) == Some(t)
      && r[1] == Header(t) && r[|r| - 1] == []
  {
    var m := "[" + TableName(t) + "]";
    assert MarkerName(m) == TableName(t);
    TableNames();
    var r := Block(t, data);
    assert r[2..|r| - 1] == data;
  }

  /**
   * The export is three blocks, for Artists, Albums and Tracks in that order,
   * each holding one row per key.
   */
  lemma ExportLayout(c: Catalog, artistOrder: seq<string>, albumOrder: seq<string>, trackOrder: seq<string>)
    requires IsEnumeration(artistOrder, c.artists.Keys)
    requires IsEnumeration(albumOrder, c.albums.Keys)
    requires IsEnumeration(trackOrder, c.tracks.Keys)
    ensures var r := ExportRows(c, artistOrder, albumOrder, trackOrder);
      var b := |artistOrder| + 3; var d := b + |albumOrder| + 3;
      && |r| == d + |trackOrder| + 3
      && r[..b] == Block(ArtistsTable, ExportData(c, ArtistsTable, artistOrder))
      && r[b..d] == Block(AlbumsTable, ExportData(c, AlbumsTable, albumOrder))
      && r[d..] == Block(TracksTable, ExportData(c, TracksTable, trackOrder))
  {
    var x := Block(ArtistsTable, ExportData(c, ArtistsTable, artistOrder));
    var y := Block(AlbumsTable, ExportData(c, AlbumsTable, albumOrder));
    var z := Block(TracksTable, ExportData(c, TracksTable, trackOrder));
    assert |x| == |artistOrder| + 3 && |y| == |albumOrder| + 3;
    var r := x + y + z;
    assert r[..|x|] == x;
    assert r[|x|..|x| + |y|] == y;
    assert r[|x| + |y|..] == z;
  }

  // ---- the round trip ----

  /** What a row becomes after being exported and imported again. */
  function ThroughCsv(r: Record): Record {
    match r
    case ArtistRecord(a) =>
      ArtistRecord(Artist(a.id, a.name, Some(FormatText(a.genres)), Some(FormatText(a.uri)),
                          Some(FormatText(a.url)), None))
    case AlbumRecord(a) =>
      AlbumRecord(Album(a.id, a.artistId, a.name, YearCell(Some(FormatValue(a.releaseYear))),
                        Some(FormatText(a.uri)), Some(FormatText(a.url))))
    case TrackRecord(t) =>
      TrackRecord(Track(t.id, t.artistId, t.albumId, t.name, YearCell(Some(FormatValue(t.releaseYear))),
                        Some(FormatText(t.uri)), Some(FormatText(t.url))))
  }

  /** The catalog after an export and an import into an empty database. */
  function ThroughCsvCatalog(c: Catalog): (r: Catalog)
    ensures forall t, id ::
              Lookup(r, t, id) ==
                match Lookup(c, t, id)
                case Some(x) => Some(ThroughCsv(x))
                case None => None
  {
    Catalog(
      map k | k in c.artists :: ThroughCsv(ArtistRecord(c.artists[k])).artist,
      map k | k in c.albums :: ThroughCsv(AlbumRecord(c.albums[k])).album,
      map k | k in c.tracks :: ThroughCsv(TrackRecord(c.tracks[k])).track)
  }

  /** A row as the add operations write it: every nullable column set, the year an integer. */
  predicate Complete(r: Record) {
    match r
    case ArtistRecord(a) => a.genres.Some? && a.uri.Some? && a.url.Some?
    case AlbumRecord(a) => a.releaseYear.Int? && a.uri.Some? && a.url.Some?
    case TrackRecord(t) => t.releaseYear.Int? && t.uri.Some? && t.url.Some?
  }

  /**
   * A complete row comes back unchanged, except that an artist's `image_url`
   * is not exported and comes back NULL.
   */
  lemma ThroughCsvComplete(r: Record)
    requires Complete(r)
    ensures r.ArtistRecord? ==> ThroughCsv(r) == ArtistRecord(r.artist.(imageUrl := None))
    ensures !r.ArtistRecord? ==> ThroughCsv(r) == r
  {
    match r
    case ArtistRecord(_) =>
    case AlbumRecord(a) => ParseIntToString(a.releaseYear.i);
    case TrackRecord(t) => ParseIntToString(t.releaseYear.i);
  }

  lemma TableNames()
    ensures TableNamed("artists") == Some(ArtistsTable)
    ensures TableNamed("albums") == Some(AlbumsTable)
    ensures TableNamed("tracks") == Some(TracksTable)
  {
    TrimUnpadded("artists");
    TrimUnpadded("albums");
    TrimUnpadded("tracks");
    assert !SameIdent("tracks", "albums") by {
      assert LowerAscii("tracks"[0]) != LowerAscii("albums"[0]);
    }
  }

  /** The exported header names carry no whitespace, so the SQL text reads them as written. */
  lemma HeaderUnpadded(t: Table)
    ensures Names(Header(t)) == Header(t)
  {
    NamesUnpadded(Header(t));
  }

  lemma NamesUnpadded(cols: seq<string>)
    requires forall i | 0 <= i < |cols| :: cols[i] != [] && !IsSqlSpace(cols[i][0]) && !IsSqlSpace(cols[i][|cols[i]| - 1])
    ensures Names(cols) == cols
  {
    forall i | 0 <= i < |cols| ensures Names(cols)[i] == cols[i] {
      TrimUnpadded(cols[i]);
    }
  }

  lemma ColumnAt(headers: seq<string>, col: string, k: nat)
    requires k < |headers| && headers[k] == col
    requires forall j | 0 <= j < k :: !SameIdent(headers[j], col)
    ensures ColumnIndex(headers, col) == Some(k)
  {
    assert SameIdent(headers[k], col);
  }

  /** A column whose name no earlier header matches in length is found where it stands. */
  lemma ColumnAtByLength(headers: seq<string>, col: string, k: nat)
    requires k < |headers| && headers[k] == col
    requires forall j | 0 <= j < k :: |headers[j]| != |col|
    ensures ColumnIndex(headers, col) == Some(k)
  {
    ColumnAt(headers, col, k);
  }

  lemma ColumnAbsent(headers: seq<string>, col: string)
    requires forall j | 0 <= j < |headers| :: |headers[j]| != |col|
    ensures ColumnIndex(headers, col) == None
  {
  }

  lemma UriIsNotUrl()
    ensures !SameIdent("uri", "url")
  {
    assert LowerAscii("uri"[2]) != LowerAscii("url"[2]);
  }

  lemma HeaderKnown(t: Table)
    ensures UnknownColumn(t, Header(t)).None?
  {
    var h := Header(t);
    forall i | 0 <= i < |h| ensures ColumnIndex(Schema(t), h[i]).Some? {
      assert SameIdent(Schema(t)[i], h[i]);
    }
  }

  lemma DecodeExportedArtist(a: Artist)
    ensures DecodeRow(ArtistsTable, Header(ArtistsTable), Fields(ArtistRecord(a))) == Ok(ThroughCsv(ArtistRecord(a)))
  {
    ArtistColumns();
    DecodeArtistRow(Header(ArtistsTable), Fields(ArtistRecord(a)));
  }

  lemma ArtistColumns()
    ensures var h := Header(ArtistsTable);
      && ColumnIndex(h, "id") == Some(0) && ColumnIndex(h, "name") == Some(1)
      && ColumnIndex(h, "genres") == Some(2) && ColumnIndex(h, "uri") == Some(3)
      && ColumnIndex(h, "url") == Some(4) && ColumnIndex(h, "image_url") == None
  {
    var h := Header(ArtistsTable);
    UriIsNotUrl();
    ColumnAtByLength(h, "id", 0);
    ColumnAtByLength(h, "name", 1);
    ColumnAtByLength(h, "genres", 2);
    ColumnAtByLength(h, "uri", 3);
    ColumnAt(h, "url", 4);
    ColumnAbsent(h, "image_url");
  }

  /** An Artists row decodes by position once the header's positions are known. */
  lemma DecodeArtistRow(h: seq<string>, row: seq<string>)
    requires |row| == |h| == 5
    requires ColumnIndex(h, "id") == Some(0) && ColumnIndex(h, "name") == Some(1)
    requires ColumnIndex(h, "genres") == Some(2) && ColumnIndex(h, "uri") == Some(3)
    requires ColumnIndex(h, "url") == Some(4) && ColumnIndex(h, "image_url") == None
    ensures DecodeRow(ArtistsTable, h, row) ==
      Ok(ArtistRecord(Artist(row[0], row[1], Some(row[2]), Some(row[3]), Some(row[4]), None)))
  {
  }

  lemma AlbumColumnsFront()
    ensures var h := Header(AlbumsTable);
      && ColumnIndex(h, "id") == Some(0) && ColumnIndex(h, "artist_id") == Some(1)
      && ColumnIndex(h, "name") == Some(2)
  {
    var h := Header(AlbumsTable);
    ColumnAtByLength(h, "id", 0);
    ColumnAtByLength(h, "artist_id", 1);
    ColumnAtByLength(h, "name", 2);
  }

  lemma AlbumColumnsBack()
    ensures var h := Header(AlbumsTable);
      && ColumnIndex(h, "release_year") == Some(3) && ColumnIndex(h, "uri") == Some(4)
      && ColumnIndex(h, "url") == Some(5)
  {
    var h := Header(AlbumsTable);
    UriIsNotUrl();
    ColumnAtByLength(h, "release_year", 3);
    ColumnAtByLength(h, "uri", 4);
    ColumnAt(h, "url", 5);
  }

  /** An Albums row decodes by position once the header's positions are known. */
  lemma DecodeAlbumRow(h: seq<string>, row: seq<string>)
    requires |row| == |h| == 6
    requires ColumnIndex(h, "id") == Some(0) && ColumnIndex(h, "artist_id") == Some(1)
    requires ColumnIndex(h, "name") == Some(2) && ColumnIndex(h, "release_year") == Some(3)
    requires ColumnIndex(h, "uri") == Some(4) && ColumnIndex(h, "url") == Some(5)
    ensures DecodeRow(AlbumsTable, h, row) ==
      Ok(AlbumRecord(Album(row[0], row[1], row[2], YearCell(Some(row[3])), Some(row[4]), Some(row[5]))))
  {
  }

  lemma DecodeExportedAlbum(a: Album)
    ensures DecodeRow(AlbumsTable, Header(AlbumsTable), Fields(AlbumRecord(a))) == Ok(ThroughCsv(AlbumRecord(a)))
  {
    AlbumColumnsFront();
    AlbumColumnsBack();
    DecodeAlbumRow(Header(AlbumsTable), Fields(AlbumRecord(a)));
  }

  lemma TrackColumnsFront()
    ensures var h := Header(TracksTable);
      && ColumnIndex(h, "id") == Some(0) && ColumnIndex(h, "artist_id") == Some(1)
      && ColumnIndex(h, "album_id") == Some(2) && ColumnIndex(h, "name") == Some(3)
  {
    var h := Header(TracksTable);
    ColumnAtByLength(h, "id", 0);
    ColumnAtByLength(h, "artist_id", 1);
    ColumnAtByLength(h, "album_id", 2);
    ColumnAtByLength(h, "name", 3);
  }

  lemma TrackColumnsBack()
    ensures var h := Header(TracksTable);
      && ColumnIndex(h, "release_year") == Some(4) && ColumnIndex(h, "uri") == Some(5)
      && ColumnIndex(h, "url") == Some(6)
  {
    var h := Header(TracksTable);
    UriIsNotUrl();
    ColumnAtByLength(h, "release_year", 4);
    ColumnAtByLength(h, "uri", 5);
    ColumnAt(h, "url", 6);
  }

  /** A Tracks row decodes by position once the header's positions are known. */
  lemma DecodeTrackRow(h: seq<string>, row: seq<string>)
    requires |row| == |h| == 7
    requires ColumnIndex(h, "id") == Some(0) && ColumnIndex(h, "artist_id") == Some(1)
    requires ColumnIndex(h, "album_id") == Some(2) && ColumnIndex(h, "name") == Some(3)
    requires ColumnIndex(h, "release_year") == Some(4) && ColumnIndex(h, "uri") == Some(5)
    requires ColumnIndex(h, "url") == Some(6)
    ensures DecodeRow(TracksTable, h, row) ==
      Ok(TrackRecord(Track(row[0], row[1], row[2], row[3], YearCell(Some(row[4])), Some(row[5]), Some(row[6]))))
  {
    assert Required(h, row, "id") == Ok(row[0]) && Required(h, row, "name") == Ok(row[3]);
    assert Required(h, row, "artist_id") == Ok(row[1]) && Required(h, row, "album_id") == Ok(row[2]);
    assert CellOf(h, row, "release_year") == Some(row[4]);
    assert CellOf(h, row, "uri") == Some(row[5]) && CellOf(h, row, "url") == Some(row[6]);
  }

  lemma DecodeExportedTrack(t: Track)
    ensures DecodeRow(TracksTable, Header(TracksTable), Fields(TrackRecord(t))) == Ok(ThroughCsv(TrackRecord(t)))
  {
    TrackColumnsFront();
    TrackColumnsBack();
    DecodeTrackRow(Header(TracksTable), Fields(TrackRecord(t)));
  }

  /** An exported row decodes, under the exported header, to its round-tripped self. */
  lemma DecodeExported(r: Record)
    ensures |Fields(r)| == |Header(TableOf(r))|
    ensures DecodeRow(TableOf(r), Header(TableOf(r)), Fields(r)) == Ok(ThroughCsv(r))
  {
    match r
    case ArtistRecord(a) => DecodeExportedArtist(a);
    case AlbumRecord(a) => DecodeExportedAlbum(a);
    case TrackRecord(t) => DecodeExportedTrack(t);
  }

  /** The table's rows: none with ids shaped like a marker. */
  predicate NoMarkerIds(c: Catalog) {
    && (forall k | k in c.artists :: !IsMarker(k))
    && (forall k | k in c.albums :: !IsMarker(k))
    && (forall k | k in c.tracks :: !IsMarker(k))
  }

  lemma {:induction false} RunDataRows(s: ScanState, data: seq<seq<string>>)
    requires s.failure.None? && s.headers != []
    requires forall i | 0 <= i < |data| :: data[i] != [] && !IsMarker(data[i][0])
    ensures Run(s, data) == s.(data := s.data + data)
    decreases |data|
  {
    if data != [] {
      RunDataRows(s.(data := s.data + [data[0]]), data[1..]);
      assert s.data + [data[0]] + data[1..] == s.data + data;
    }
  }

  /** The block-reading half of a round trip: a whole exported block leaves its rows buffered. */
  lemma RunBlock(s: ScanState, t: Table, data: seq<seq<string>>, db1: Catalog)
    requires s.failure.None?
    requires !Pending(s) ==> s.data == [] && db1 == s.db
    requires Pending(s) ==> InsertBlock(s.db, s.current.value, s.headers, s.data) == Ok(db1)
    requires forall i | 0 <= i < |data| :: data[i] != [] && !IsMarker(data[i][0])
    ensures Run(s, Block(t, data)) == ScanState(db1, Some(TableName(t)), Header(t), data, None)
  {
    var m := "[" + TableName(t) + "]";
    var s2 := ScanState(db1, Some(TableName(t)), Header(t), [], None);
    EnterBlock(s, t, db1);
    RunAppend(s, [[m], Header(t)] + data, [[]]);
    RunAppend(s, [[m], Header(t)], data);
    RunDataRows(s2, data);
    assert Block(t, data) == [[m], Header(t)] + data + [[]];
  }

  /** A marker row and a header row start the block of table `t`, after the pending block flushes. */
  lemma EnterBlock(s: ScanState, t: Table, db1: Catalog)
    requires s.failure.None?
    requires !Pending(s) ==> s.data == [] && db1 == s.db
    requires Pending(s) ==> InsertBlock(s.db, s.current.value, s.headers, s.data) == Ok(db1)
    ensures Run(s, [["[" + TableName(t) + "]"], Header(t)]) == ScanState(db1, Some(TableName(t)), Header(t), [], None)
  {
    var m := "[" + TableName(t) + "]";
    var s1 := ScanState(db1, Some(TableName(t)), [], [], None);
    MarkerStep(s, t, db1);
    HeaderStep(s1, t);
    RunTwo(s, [m], Header(t));
  }

  lemma RunTwo(s: ScanState, a: seq<string>, b: seq<string>)
    ensures Run(s, [a, b]) == Step(Step(s, a), b)
  {
    var rows := [a, b];
    assert rows[0] == a && rows[1..] == [b];
    assert Run(s, rows) == Run(Step(s, a), [b]);
    assert [b][0] == b && [b][1..] == [];
    assert Run(Step(s, a), [b]) == Run(Step(Step(s, a), b), []);
  }

  lemma MarkerStep(s: ScanState, t: Table, db1: Catalog)
    requires s.failure.None?
    requires !Pending(s) ==> s.data == [] && db1 == s.db
    requires Pending(s) ==> InsertBlock(s.db, s.current.value, s.headers, s.data) == Ok(db1)
    ensures Step(s, ["[" + TableName(t) + "]"]) == ScanState(db1, Some(TableName(t)), [], [], None)
  {
    var m := "[" + TableName(t) + "]";
    assert IsMarker(m) && MarkerName(m) == TableName(t);
  }

  lemma HeaderStep(s: ScanState, t: Table)
    requires s.failure.None? && s.headers == [] && s.data == []
    ensures Step(s, Header(t)) == s.(headers := Header(t))
  {
    assert Header(t)[0] == "id";
    assert !IsMarker("id");
  }


  /** The rows an exported block of table `t` decodes to, in export order. */
  function ImportedRecords(c: Catalog, t: Table, order: seq<string>): seq<Record>
    requires forall i | 0 <= i < |order| :: Lookup(c, t, order[i]).Some?
  {
    seq(|order|, i requires 0 <= i < |order| => ThroughCsv(Lookup(c, t, order[i]).value))
  }

  /** A block decodes when each of its rows does. */
  lemma {:induction false} DecodeRowsAllOk(t: Table, headers: seq<string>, data: seq<seq<string>>, recs: seq<Record>)
    requires |data| == |recs|
    requires forall i | 0 <= i < |data| :: |data[i]| == |headers| && DecodeRow(t, headers, data[i]) == Ok(recs[i])
    ensures DecodeRows(t, headers, data) == Ok(recs)
    decreases |data|
  {
    if data != [] {
      assert |data[0]| == |headers| && DecodeRow(t, headers, data[0]) == Ok(recs[0]);
      assert forall i | 0 <= i < |data[1..]| :: data[1..][i] == data[i + 1] && recs[1..][i] == recs[i + 1];
      DecodeRowsAllOk(t, headers, data[1..], recs[1..]);
      assert recs == [recs[0]] + recs[1..];
    }
  }

  lemma DecodeExportData(c: Catalog, t: Table, order: seq<string>)
    requires WellKeyed(c)
    requires forall i | 0 <= i < |order| :: Lookup(c, t, order[i]).Some?
    ensures DecodeRows(t, Header(t), ExportData(c, t, order)) == Ok(ImportedRecords(c, t, order))
  {
    var data := ExportData(c, t, order);
    var recs := ImportedRecords(c, t, order);
    forall i | 0 <= i < |data|
      ensures |data[i]| == |Header(t)| && DecodeRow(t, Header(t), data[i]) == Ok(recs[i])
    {
      var r := Lookup(c, t, order[i]).value;
      assert TableOf(r) == t;
      DecodeExported(r);
    }
    DecodeRowsAllOk(t, Header(t), data, recs);
  }

  lemma TableOfLookup(c: Catalog, t: Table, id: string)
    requires WellKeyed(c) && Lookup(c, t, id).Some?
    ensures TableOf(ThroughCsv(Lookup(c, t, id).value)) == t
    ensures IdOf(ThroughCsv(Lookup(c, t, id).value)) == id
  {
  }

  lemma ImportedRecordsKeys(c: Catalog, t: Table, order: seq<string>)
    requires WellKeyed(c)
    requires forall i | 0 <= i < |order| :: Lookup(c, t, order[i]).Some?
    ensures forall i | 0 <= i < |order| ::
      TableOf(ImportedRecords(c, t, order)[i]) == t && IdOf(ImportedRecords(c, t, order)[i]) == order[i]
  {
    forall i | 0 <= i < |order|
      ensures TableOf(ImportedRecords(c, t, order)[i]) == t && IdOf(ImportedRecords(c, t, order)[i]) == order[i]
    {
      TableOfLookup(c, t, order[i]);
    }
  }

  lemma UpsertExportedAt(db: Catalog, c: Catalog, t: Table, order: seq<string>, u: Table, id: string)
    requires WellKeyed(c)
    requires IsEnumeration(order, TableKeys(c, t))
    requires forall id :: Lookup(db, t, id).None?
    ensures Lookup(UpsertAll(db, ImportedRecords(c, t, order)), u, id) ==
      if u == t then Lookup(ThroughCsvCatalog(c), t, id) else Lookup(db, u, id)
  {
    var recs := ImportedRecords(c, t, order);
    UpsertAllLookup(db, recs, u, id);
    ImportedRecordsKeys(c, t, order);
    if u == t && id in TableKeys(c, t) {
      var k :| 0 <= k < |order| && order[k] == id;
      LastWithUnique(recs, t, id, k);
      assert recs[k] == ThroughCsv(Lookup(c, t, id).value);
    } else {
      LastWithAbsent(recs, u, id);
    }
  }

  lemma LastWithAbsent(recs: seq<Record>, t: Table, id: string)
    requires forall i | 0 <= i < |recs| :: !(TableOf(recs[i]) == t && IdOf(recs[i]) == id)
    ensures LastWith(recs, t, id) == None
  {
  }

  /** Upserting the round-tripped rows of table `t`, listed once each, into a catalog without such rows. */
  lemma UpsertExported(db: Catalog, c: Catalog, t: Table, order: seq<string>)
    requires WellKeyed(c)
    requires IsEnumeration(order, TableKeys(c, t))
    requires forall id :: Lookup(db, t, id).None?
    ensures forall u, id ::
              Lookup(UpsertAll(db, ImportedRecords(c, t, order)), u, id) ==
                if u == t then Lookup(ThroughCsvCatalog(c), t, id) else Lookup(db, u, id)
  {
    forall u, id
      ensures Lookup(UpsertAll(db, ImportedRecords(c, t, order)), u, id) ==
        if u == t then Lookup(ThroughCsvCatalog(c), t, id) else Lookup(db, u, id)
    {
      UpsertExportedAt(db, c, t, order, u, id);
    }
  }

  /** The keys of one table. */
  function TableKeys(c: Catalog, t: Table): set<string> {
    match t
    case ArtistsTable => c.artists.Keys
    case AlbumsTable => c.albums.Keys
    case TracksTable => c.tracks.Keys
  }

  lemma {:induction false} LastWithUnique(recs: seq<Record>, t: Table, id: string, k: nat)
    requires k < |recs| && TableOf(recs[k]) == t && IdOf(recs[k]) == id
    requires forall j | 0 <= j < |recs| && j != k :: !(TableOf(recs[j]) == t && IdOf(recs[j]) == id)
    ensures LastWith(recs, t, id) == Some(recs[k])
    decreases |recs|
  {
    if k < |recs| - 1 {
      LastWithUnique(recs[..|recs| - 1], t, id, k);
    }
  }

  /** Exported data rows are never empty and never read as a marker. */
  lemma ExportDataRows(c: Catalog, t: Table, order: seq<string>)
    requires WellKeyed(c) && NoMarkerIds(c)
    requires forall i | 0 <= i < |order| :: Lookup(c, t, order[i]).Some?
    ensures forall i | 0 <= i < |order| :: ExportData(c, t, order)[i] != [] && !IsMarker(ExportData(c, t, order)[i][0])
  {
  }

  /** The flush of an exported block commits its round-tripped rows. */
  lemma FlushExported(db: Catalog, c: Catalog, t: Table, order: seq<string>)
    requires WellKeyed(c)
    requires IsEnumeration(order, TableKeys(c, t))
    ensures var s := ScanState(db, Some(TableName(t)), Header(t), ExportData(c, t, order), None);
      && (Pending(s) ==> InsertBlock(db, TableName(t), Header(t), ExportData(c, t, order)) == Ok(UpsertAll(db, ImportedRecords(c, t, order))))
      && (!Pending(s) ==> UpsertAll(db, ImportedRecords(c, t, order)) == db)
  {
    if order == [] {
      assert ImportedRecords(c, t, order) == [];
    } else {
      forall i | 0 <= i < |order| ensures Lookup(c, t, order[i]).Some? {
        assert order[i] in TableKeys(c, t);
      }
      InsertExported(db, c, t, order);
    }
  }

  /** An exported block of table `t` inserts its round-tripped rows. */
  lemma InsertExported(db: Catalog, c: Catalog, t: Table, order: seq<string>)
    requires WellKeyed(c)
    requires forall i | 0 <= i < |order| :: Lookup(c, t, order[i]).Some?
    ensures InsertBlock(db, TableName(t), Header(t), ExportData(c, t, order)) == Ok(UpsertAll(db, ImportedRecords(c, t, order)))
  {
    TableNames();
    HeaderKnown(t);
    HeaderUnpadded(t);
    DecodeExportData(c, t, order);
    InsertBlockOk(db, TableName(t), t, Header(t), ExportData(c, t, order), ImportedRecords(c, t, order));
  }

  lemma InsertBlockOk(db: Catalog, name: string, t: Table, headers: seq<string>, data: seq<seq<string>>, recs: seq<Record>)
    requires TableNamed(name) == Some(t)
    requires Names(headers) == headers
    requires UnknownColumn(t, headers).None?
    requires DecodeRows(t, headers, data) == Ok(recs)
    ensures InsertBlock(db, name, headers, data) == Ok(UpsertAll(db, recs))
  {
  }

  /** The loop has not raised, and flushing its pending block would leave `db`. */
  predicate FlushesTo(s: ScanState, db: Catalog) {
    && s.failure.None?
    && (!Pending(s) ==> s.data == [] && db == s.db)
    && (Pending(s) ==> InsertBlock(s.db, s.current.value, s.headers, s.data) == Ok(db))
  }

  lemma FinishFlushes(s: ScanState, db: Catalog)
    requires FlushesTo(s, db)
    ensures Finish(s).db == db && Finish(s).failure.None?
  {
  }

  /** Reading one exported block after a state whose pending block flushes to `db`. */
  lemma ReadExportedBlock(s: ScanState, db: Catalog, c: Catalog, t: Table, order: seq<string>)
    requires WellKeyed(c) && NoMarkerIds(c)
    requires IsEnumeration(order, TableKeys(c, t))
    requires FlushesTo(s, db)
    ensures FlushesTo(Run(s, Block(t, ExportData(c, t, order))), UpsertAll(db, ImportedRecords(c, t, order)))
  {
    ExportDataRows(c, t, order);
    RunBlock(s, t, ExportData(c, t, order), db);
    FlushExported(db, c, t, order);
  }

  /**
   * Exporting a catalog and importing the rows into an empty database succeeds
   * and yields the catalog as the CSV text carries it, provided no id looks
   * like a "[table]" marker.
   */
  lemma ExportImportRoundTrip(c: Catalog, artistOrder: seq<string>, albumOrder: seq<string>, trackOrder: seq<string>)
    requires WellKeyed(c) && NoMarkerIds(c)
    requires IsEnumeration(artistOrder, c.artists.Keys)
    requires IsEnumeration(albumOrder, c.albums.Keys)
    requires IsEnumeration(trackOrder, c.tracks.Keys)
    ensures ImportCsv(Empty, ExportRows(c, artistOrder, albumOrder, trackOrder)) == ImportResult(ThroughCsvCatalog(c), None)
  {
    var ba := Block(ArtistsTable, ExportData(c, ArtistsTable, artistOrder));
    var bb := Block(AlbumsTable, ExportData(c, AlbumsTable, albumOrder));
    var bt := Block(TracksTable, ExportData(c, TracksTable, trackOrder));
    var d1 := UpsertAll(Empty, ImportedRecords(c, ArtistsTable, artistOrder));
    var d2 := UpsertAll(d1, ImportedRecords(c, AlbumsTable, albumOrder));
    var d3 := UpsertAll(d2, ImportedRecords(c, TracksTable, trackOrder));
    assert FlushesTo(Init(Empty), Empty);
    ReadExportedBlock(Init(Empty), Empty, c, ArtistsTable, artistOrder);
    var s1 := Run(Init(Empty), ba);
    ReadExportedBlock(s1, d1, c, AlbumsTable, albumOrder);
    var s2 := Run(s1, bb);
    ReadExportedBlock(s2, d2, c, TracksTable, trackOrder);
    var s3 := Run(s2, bt);
    FinishFlushes(s3, d3);
    RunAppend(Init(Empty), ba + bb, bt);
    RunAppend(Init(Empty), ba, bb);
    assert ExportRows(c, artistOrder, albumOrder, trackOrder) == ba + bb + bt;
    ImportedCatalog(c, artistOrder, albumOrder, trackOrder);
  }

  /** The three exported blocks, upserted in turn into an empty database, give the round-tripped catalog. */
  lemma ImportedCatalog(c: Catalog, artistOrder: seq<string>, albumOrder: seq<string>, trackOrder: seq<string>)
    requires WellKeyed(c)
    requires IsEnumeration(artistOrder, c.artists.Keys)
    requires IsEnumeration(albumOrder, c.albums.Keys)
    requires IsEnumeration(trackOrder, c.tracks.Keys)
    ensures var d1 := UpsertAll(Empty, ImportedRecords(c, ArtistsTable, artistOrder));
      var d2 := UpsertAll(d1, ImportedRecords(c, AlbumsTable, albumOrder));
      UpsertAll(d2, ImportedRecords(c, TracksTable, trackOrder)) == ThroughCsvCatalog(c)
  {
    var d1 := UpsertAll(Empty, ImportedRecords(c, ArtistsTable, artistOrder));
    var d2 := UpsertAll(d1, ImportedRecords(c, AlbumsTable, albumOrder));
    var d3 := UpsertAll(d2, ImportedRecords(c, TracksTable, trackOrder));
    UpsertExported(Empty, c, ArtistsTable, artistOrder);
    UpsertExported(d1, c, AlbumsTable, albumOrder);
    UpsertExported(d2, c, TracksTable, trackOrder);
    forall u, id ensures Lookup(d3, u, id) == Lookup(ThroughCsvCatalog(c), u, id) {
    }
    LookupExtensional(d3, ThroughCsvCatalog(c));
  }

  /** Every row of the catalog is as the add operations write it. */
  ghost predicate CompleteCatalog(c: Catalog) {
    forall t, id | Lookup(c, t, id).Some? :: Complete(Lookup(c, t, id).value)
  }

  /** The catalog with every artist's `image_url` set to NULL. */
  function WithoutImages(c: Catalog): Catalog {
    c.(artists := map k | k in c.artists :: c.artists[k].(imageUrl := None))
  }

  /**
   * Through the CSV text a catalog of complete rows keeps every column except
   * the artists' `image_url`, which the export leaves out.
   */
  lemma ThroughCsvCatalogComplete(c: Catalog)
    requires CompleteCatalog(c)
    ensures ThroughCsvCatalog(c) == WithoutImages(c)
  {
    forall t, id ensures Lookup(ThroughCsvCatalog(c), t, id) == Lookup(WithoutImages(c), t, id) {
      if Lookup(c, t, id).Some? {
        ThroughCsvComplete(Lookup(c, t, id).value);
      }
    }
    LookupExtensional(ThroughCsvCatalog(c), WithoutImages(c));
  }

  /**
   * Exporting a catalog of complete rows and importing it into an empty
   * database gives the catalog back, with every `image_url` NULL.
   */
  lemma ExportImportComplete(c: Catalog, artistOrder: seq<string>, albumOrder: seq<string>, trackOrder: seq<string>)
    requires WellKeyed(c) && NoMarkerIds(c) && CompleteCatalog(c)
    requires IsEnumeration(artistOrder, c.artists.Keys)
    requires IsEnumeration(albumOrder, c.albums.Keys)
    requires IsEnumeration(trackOrder, c.tracks.Keys)
    ensures ImportCsv(Empty, ExportRows(c, artistOrder, albumOrder, trackOrder)) == ImportResult(WithoutImages(c), None)
  {
    ExportImportRoundTrip(c, artistOrder, albumOrder, trackOrder);
    ThroughCsvCatalogComplete(c);
  }

  /** The rows the add operations write are complete, so they survive a round trip. */
  lemma AddedRowsSurviveCsv(a: ArtistInfo, b: AlbumInfo, t: TrackInfo)
    ensures ThroughCsv(ArtistRecord(ArtistRow(a))) == ArtistRecord(ArtistRow(a).(imageUrl := None))
    ensures ThroughCsv(AlbumRecord(AlbumRow(b))) == AlbumRecord(AlbumRow(b))
    ensures ThroughCsv(TrackRecord(TrackRow(t))) == TrackRecord(TrackRow(t))
  {
    ThroughCsvComplete(ArtistRecord(ArtistRow(a)));
    ThroughCsvComplete(AlbumRecord(AlbumRow(b)));
    ThroughCsvComplete(TrackRecord(TrackRow(t)));
  }

  /**
   * Names in the SQL text are read without surrounding whitespace: a padded
   * marker name and a padded header cell still name the table and column.
   */
  lemma PaddedNamesAccepted(db: Catalog)
    ensures InsertBlock(db, " artists ", ["id", " name"], [["a", "b"]]) ==
      Ok(WithArtist(db, Artist("a", "b", None, None, None, None)))
  {
    PaddedNames();
    var rec := ArtistRecord(Artist("a", "b", None, None, None, None));
    IdNameBlock();
    assert UpsertAll(db, [rec]) == UpsertRecord(UpsertAll(db, []), rec);
  }

  lemma PaddedNames()
    ensures TableNamed(" artists ") == Some(ArtistsTable)
    ensures Names(["id", " name"]) == ["id", "name"]
  {
    PaddedTableName();
    PaddedColumnName();
  }

  lemma PaddedTableName()
    ensures Trim(" artists ") == "artists"
  {
    TrimPadded(' ', "artists" + [' ']);
    assert " artists " == [' '] + ("artists" + [' ']);
    TrimPadded(' ', "artists");
    TrimUnpadded("artists");
  }

  lemma PaddedColumnName()
    ensures Trim(" name") == "name" && Trim("id") == "id"
  {
    TrimPadded(' ', "name");
    assert " name" == [' '] + "name";
    TrimUnpadded("name");
    TrimUnpadded("id");
  }

  /** A block with only `id` and `name` columns gives an artist whose other columns are NULL. */
  lemma IdNameBlock()
    ensures UnknownColumn(ArtistsTable, ["id", "name"]).None?
    ensures DecodeRows(ArtistsTable, ["id", "name"], [["a", "b"]]) ==
      Ok([ArtistRecord(Artist("a", "b", None, None, None, None))])
  {
    var h := ["id", "name"];
    ColumnAt(Schema(ArtistsTable), "id", 0);
    ColumnAt(Schema(ArtistsTable), "name", 1);
    assert UnknownColumn(ArtistsTable, h).None?;
    var row := ["a", "b"];
    ColumnAtByLength(h, "id", 0);
    ColumnAtByLength(h, "name", 1);
    assert ColumnIndex(h, "genres").None?;
    assert ColumnIndex(h, "uri").None?;
    assert ColumnIndex(h, "url").None?;
    assert ColumnIndex(h, "image_url").None?;
    var rec := ArtistRecord(Artist("a", "b", None, None, None, None));
    assert DecodeRow(ArtistsTable, h, row) == Ok(rec);
    DecodeRowsAllOk(ArtistsTable, h, [row], [rec]);
  }
}

=== FILE: database.dfy ===
/**
 * The store of `database.py`: the three tables as map fields updated in
 * place. Each method is proved against the value-level function in module
 * Catalog or CsvTransfer that says what it does to `Contents()`.
 */
module Database {
  import opened Wrappers
  import opened Strings
  import opened Images
  import opened Catalog
  import opened CsvTransfer

  class Store {
    var artists: map<string, Artist>
    var albums: map<string, Album>
    var tracks: map<string, Track>

    /** The database as a value. */
    function Contents(): Catalog
      reads this
    {
      Catalog(artists, albums, tracks)
    }

    /** The PRIMARY KEY of every table is the row's `id`. */
    predicate Valid()
      reads this
    {
      WellKeyed(Contents())
    }

    /** A new database file, on which `create_tables` creates three empty tables. */
    constructor ()
      ensures Valid() && Contents() == Empty
    {
      artists := map[];
      albums := map[];
      tracks := map[];
    }

    /** `add_artist`: derives the genre text and the image URL, then upserts the row. */
    method AddArtist(info: ArtistInfo)
      requires Valid()
      modifies this
      ensures Valid()
      ensures Contents() == WithArtist(old(Contents()), ArtistRow(info))
    {
      var genresStr := Join(info.genres, ", ");
      var imageUrl := ChooseImageUrl(info.images);
      var row := Artist(info.artistId, info.artistName, Some(genresStr), Some(info.uri),
                        Some(GetOr(info.externalUrls, "spotify", "")), Some(imageUrl));
      artists := artists[row.id := row];
    }

    /** `add_album`. */
    method AddAlbum(info: AlbumInfo)
      requires Valid()
      modifies this
      ensures Valid()
      ensures Contents() == WithAlbum(old(Contents()), AlbumRow(info))
    {
      albums := albums[info.albumId := Album(info.albumId, info.artistId, info.albumName,
                                             Int(info.releaseYear), Some(info.albumUri), Some(info.url))];
    }

    /** `add_track`. */
    method AddTrack(info: TrackInfo)
      requires Valid()
      modifies this
      ensures Valid()
      ensures Contents() == WithTrack(old(Contents()), TrackRow(info))
    {
      tracks := tracks[info.trackId := Track(info.trackId, info.artistId, info.albumId, info.trackName,
                                             Int(info.releaseYear), Some(info.trackUri), Some(info.url))];
    }

    /** `delete_album`: no cascade to tracks. */
    method DeleteAlbum(id: string)
      requires Valid()
      modifies this
      ensures Valid()
      ensures Contents() == WithoutAlbum(old(Contents()), id)
    {
      albums := albums - {id};
    }

    /** `delete_artist`: no cascade to albums or tracks. */
    method DeleteArtist(id: string)
      requires Valid()
      modifies this
      ensures Valid()
      ensures Contents() == WithoutArtist(old(Contents()), id)
    {
      artists := artists - {id};
    }

    /** `delete_item`: Albums for the type "album", Tracks for any other type. */
    method DeleteItem(id: string, itemType: string)
      requires Valid()
      modifies this
      ensures Valid()
      ensures Contents() == WithoutItem(old(Contents()), id, itemType)
    {
      if itemType == "album" {
        albums := albums - {id};
      } else {
        tracks := tracks - {id};
      }
    }

    /** `cleanup_unused_artists`: deletes every artist nothing references and returns `rowcount`. */
    method CleanupUnusedArtists() returns (removed: nat)
      requires Valid()
      modifies this
      ensures Valid()
      ensures Contents() == WithoutUnusedArtists(old(Contents()))
      ensures removed == |UnusedArtists(old(Contents()))|
    {
      var referenced := (set k | k in tracks :: tracks[k].artistId) + (set k | k in albums :: albums[k].artistId);
      assert referenced == ReferencedArtists(Contents());
      var kept := map a | a in artists && a in referenced :: artists[a];
      ghost var before := Contents();
      CleanupCount(before);
      CleanupKeepsWellKeyed(before);
      assert kept == WithoutUnusedArtists(before).artists;
      removed := |artists| - |kept|;
      artists := kept;
    }

    /**
     * `_insert_csv_data`: the block's rows are upserted in order inside one
     * transaction; on error the transaction is rolled back.
     */
    method InsertCsvData(table: string, columns: seq<string>, data: seq<seq<string>>) returns (failure: Option<ImportError>)
      requires Valid()
      modifies this
      ensures Valid()
      ensures InsertBlock(old(Contents()), table, columns, data).Ok? ==>
        failure.None? && Contents() == InsertBlock(old(Contents()), table, columns, data).value
      ensures InsertBlock(old(Contents()), table, columns, data).Err? ==>
        failure == Some(InsertBlock(old(Contents()), table, columns, data).error) && Contents() == old(Contents())
    {
      var t := TableNamed(table);
      if t.None? {
        return Some(NoSuchTable(table));
      }
      var names := Names(columns);
      var unknown := UnknownColumn(t.value, names);
      if unknown.Some? {
        return Some(NoSuchColumn(unknown.value));
      }
      var decoded := DecodeRows(t.value, names, data);
      if decoded.Err? {
        return Some(decoded.error);
      }
      UpsertRecords(decoded.value);
      failure := None;
    }

    /** The `executemany` of `INSERT OR REPLACE`: the rows one after another. */
    method UpsertRecords(recs: seq<Record>)
      requires Valid()
      modifies this
      ensures Valid()
      ensures Contents() == UpsertAll(old(Contents()), recs)
    {
      var i := 0;
      while i < |recs|
        invariant 0 <= i <= |recs|
        invariant Valid()
        invariant Contents() == UpsertAll(old(Contents()), recs[..i])
      {
        match recs[i] {
          case ArtistRecord(a) => artists := artists[a.id := a];
          case AlbumRecord(a) => albums := albums[a.id := a];
          case TrackRecord(tr) => tracks := tracks[tr.id := tr];
        }
        assert recs[..i + 1][..i] == recs[..i];
        i := i + 1;
      }
      assert recs[..|recs|] == recs;
    }

    /**
     * `import_database_csv`: reads the rows once, tracking the current table,
     * its header and the buffered data rows, and flushes a block whenever a
     * new marker arrives and at the end. The first error stops the import.
     */
    method ImportDatabaseCsv(rows: seq<seq<string>>) returns (failure: Option<ImportError>)
      requires Valid()
      modifies this
      ensures Valid()
      ensures ImportResult(Contents(), failure) == ImportCsv(old(Contents()), rows)
    {
      var currentTable: Option<string> := None;
      var headers: seq<string> := [];
      var data: seq<seq<string>> := [];
      var i := 0;
      while i < |rows|
        invariant 0 <= i <= |rows|
        invariant Valid()
        invariant ImportCsv(old(Contents()), rows) == Resume(ScanState(Contents(), currentTable, headers, data, None), rows[i..])
      {
        var row := rows[i];
        ghost var s := ScanState(Contents(), currentTable, headers, data, None);
        assert rows[i..][0] == row && rows[i..][1..] == rows[i + 1..];
        if row != [] {
          if IsMarker(row[0]) {
            if currentTable.Some? && currentTable.value != "" && data != [] {
              failure := InsertCsvData(currentTable.value, headers, data);
              if failure.Some? {
                RunAfterFailure(Step(s, row), rows[i + 1..]);
                return;
              }
              data := [];
            }
            currentTable := Some(MarkerName(row[0]));
            headers := [];
          } else if headers == [] {
            headers := row;
          } else {
            data := data + [row];
          }
        }
        assert Step(s, row) == ScanState(Contents(), currentTable, headers, data, None);
        i := i + 1;
      }
      if currentTable.Some? && currentTable.value != "" && data != [] {
        failure := InsertCsvData(currentTable.value, headers, data);
      } else {
        failure := None;
      }
    }

    /** One table's part of `export_database_csv`: marker, header, the rows in scan order, a blank row. */
    method ExportTable(t: Table, order: seq<string>) returns (block: seq<seq<string>>)
      requires forall i | 0 <= i < |order| :: Lookup(Contents(), t, order[i]).Some?
      ensures block == Block(t, ExportData(Contents(), t, order))
    {
      block := [["[" + TableName(t) + "]"], Header(t)];
      for i := 0 to |order|
        invariant block == [["[" + TableName(t) + "]"], Header(t)] + ExportData(Contents(), t, order[..i])
      {
        block := block + [Fields(Lookup(Contents(), t, order[i]).value)];
        assert ExportData(Contents(), t, order[..i + 1]) ==
               ExportData(Contents(), t, order[..i]) + [Fields(Lookup(Contents(), t, order[i]).value)];
      }
      assert order[..|order|] == order;
      block := block + [[]];
    }

    /** `export_database_csv`: the artists, albums and tracks blocks, in that order. */
    method ExportDatabaseCsv(artistOrder: seq<string>, albumOrder: seq<string>, trackOrder: seq<string>)
      returns (rows: seq<seq<string>>)
      requires IsEnumeration(artistOrder, artists.Keys)
      requires IsEnumeration(albumOrder, albums.Keys)
      requires IsEnumeration(trackOrder, tracks.Keys)
      ensures rows == ExportRows(Contents(), artistOrder, albumOrder, trackOrder)
    {
      var a := ExportTable(ArtistsTable, artistOrder);
      var b := ExportTable(AlbumsTable, albumOrder);
      var t := ExportTable(TracksTable, trackOrder);
      rows := a + b + t;
    }
  }
}

=== FILE: images.dfy ===
/**
 * The artist image choice of `add_artist`: sort the images by width,
 * widest first, keep the first whose width lies in [200, 500], and fall back
 * to the widest image.
 */
module Images {
  import opened Wrappers

  /** One entry of an artist's `images` list; a missing width reads as 0. */
  datatype Image = Image(url: string, width: int)

  /** The width band the source prefers ("medium size"). */
  predicate InBand(w: int) {
    200 <= w <= 500
  }

  /** An image the search accepts: any image, or only those in the band. */
  predicate Eligible(img: Image, anyWidth: bool) {
    anyWidth || InBand(img.width)
  }

  predicate Descending(s: seq<Image>) {
    forall i, j | 0 <= i < j < |s| :: s[i].width >= s[j].width
  }

  /**
   * Inserts `x` in front of the first element that is not wider than it, so
   * that `x`, which came first in the input, stays ahead of equal widths.
   */
  function InsertDesc(x: Image, t: seq<Image>): (r: seq<Image>)
    ensures multiset(r) == multiset(t) + multiset{x}
    ensures Descending(t) ==> Descending(r)
  {
    if t == [] || t[0].width <= x.width then
      assert Descending(t) ==> Descending([x] + t) by {
        if Descending(t) {
          if t != [] {
            DescendingHeadMax(t);
          }
          ConsDescending(x, t);
        }
      }
      [x] + t
    else
      var rest := InsertDesc(x, t[1..]);
      assert t == [t[0]] + t[1..];
      assert multiset([t[0]] + rest) == multiset{t[0]} + multiset(rest);
      assert Descending(t) ==> Descending([t[0]] + rest) by {
        if Descending(t) {
          DescendingHeadMax(t);
          forall y | y in rest ensures y.width <= t[0].width {
            assert y in multiset(rest);
            assert y == x || y in multiset(t[1..]);
          }
          ConsDescending(t[0], rest);
        }
      }
      [t[0]] + rest
  }

  /** The head of a descending list is at least as wide as every element. */
  lemma DescendingHeadMax(t: seq<Image>)
    requires Descending(t) && t != []
    ensures forall y | y in t :: y.width <= t[0].width
  {
    forall y | y in t ensures y.width <= t[0].width {
      var k :| 0 <= k < |t| && t[k] == y;
    }
  }

  /** Putting an element no narrower than any other in front keeps the order. */
  lemma ConsDescending(h: Image, rest: seq<Image>)
    requires Descending(rest)
    requires forall y | y in rest :: y.width <= h.width
    ensures Descending([h] + rest)
  {
    var s := [h] + rest;
    forall i, j | 0 <= i < j < |s| ensures s[i].width >= s[j].width {
      assert s[j] == rest[j - 1] && rest[j - 1] in rest;
      if i > 0 {
        assert s[i] == rest[i - 1];
      }
    }
  }

  /**
   * Python's `sorted(images, key=width, reverse=True)`: a stable sort,
   * widest first, equal widths in input order.
   */
  function SortByWidthDesc(s: seq<Image>): (r: seq<Image>)
    ensures multiset(r) == multiset(s)
    ensures |r| == |s|
    ensures Descending(r)
  {
    if s == [] then []
    else
      var r := InsertDesc(s[0], SortByWidthDesc(s[1..]));
      assert s == [s[0]] + s[1..];
      assert |r| == |multiset(r)|;
      r
  }

  /** The first eligible element of `t`, scanning from the front. */
  function FirstEligible(t: seq<Image>, anyWidth: bool): (r: Option<Image>)
    ensures r.Some? ==> r.value in t && Eligible(r.value, anyWidth)
    ensures r.None? ==> forall i | 0 <= i < |t| :: !Eligible(t[i], anyWidth)
  {
    if t == [] then None
    else if Eligible(t[0], anyWidth) then Some(t[0])
    else FirstEligible(t[1..], anyWidth)
  }

  /**
   * Index of the image the source picks among the eligible ones: the widest,
   * and among equally wide ones the earliest in the input.
   */
  function BestIndex(s: seq<Image>, anyWidth: bool): (r: Option<nat>)
    ensures r.None? <==> forall i | 0 <= i < |s| :: !Eligible(s[i], anyWidth)
    ensures r.Some? ==> r.value < |s| && Eligible(s[r.value], anyWidth)
    ensures r.Some? ==> forall j | 0 <= j < |s| && Eligible(s[j], anyWidth) :: s[j].width <= s[r.value].width
    ensures r.Some? ==> forall j | 0 <= j < r.value && Eligible(s[j], anyWidth) :: s[j].width < s[r.value].width
  {
    if s == [] then None
    else
      var b := BestIndex(s[1..], anyWidth);
      if Eligible(s[0], anyWidth) && (b.None? || s[0].width >= s[1..][b.value].width) then Some(0)
      else if b.Some? then Some(b.value + 1)
      else None
  }

  function BestImage(s: seq<Image>, anyWidth: bool): Option<Image> {
    match BestIndex(s, anyWidth)
    case Some(k) => Some(s[k])
    case None => None
  }

  /**
   * The `image_url` that `add_artist` stores: empty without images, else the
   * preferred in-band image, else the widest image.
   */
  function ImageUrl(images: seq<Image>): (r: string)
    ensures images == [] ==> r == ""
    ensures images != [] ==> exists k | 0 <= k < |images| :: r == images[k].url
  {
    if images == [] then ""
    else match BestIndex(images, false)
      case Some(k) =>
        assert BestImage(images, false) == Some(images[k]);
        images[k].url
      case None =>
        var k := BestIndex(images, true).value;
        assert BestImage(images, true) == Some(images[k]);
        images[k].url
  }

  lemma {:induction false} BestImageStep(s: seq<Image>, anyWidth: bool)
    requires s != []
    ensures var b := BestImage(s[1..], anyWidth);
            BestImage(s, anyWidth) ==
              if Eligible(s[0], anyWidth) && (b.None? || s[0].width >= b.value.width) then Some(s[0]) else b
  {
  }

  /** Inserting into a descending list changes its first eligible element as the choice rule says. */
  lemma {:induction false} FirstEligibleInsert(x: Image, t: seq<Image>, anyWidth: bool)
    requires Descending(t)
    ensures var f := FirstEligible(t, anyWidth);
            FirstEligible(InsertDesc(x, t), anyWidth) ==
              if Eligible(x, anyWidth) && (f.None? || x.width >= f.value.width) then Some(x) else f
    decreases |t|
  {
    var r := InsertDesc(x, t);
    var f := FirstEligible(t, anyWidth);
    if t == [] || t[0].width <= x.width {
      assert r == [x] + t;
      assert r[0] == x && r[1..] == t;
      if f.Some? && Eligible(x, anyWidth) {
        var k :| 0 <= k < |t| && t[k] == f.value;
        assert t[0].width >= t[k].width;
      }
    } else {
      var rest := InsertDesc(x, t[1..]);
      assert r == [t[0]] + rest;
      assert r[0] == t[0] && r[1..] == rest;
      DescendingTail(t);
      FirstEligibleInsert(x, t[1..], anyWidth);
    }
  }

  lemma DescendingTail(t: seq<Image>)
    requires Descending(t) && t != []
    ensures Descending(t[1..])
  {
    forall i, j | 0 <= i < j < |t[1..]| ensures t[1..][i].width >= t[1..][j].width {
      assert t[1..][i] == t[i + 1] && t[1..][j] == t[j + 1];
    }
  }

  /** The first eligible element of the sorted list is the image the choice rule names. */
  lemma {:induction false} SortedFirstEligible(s: seq<Image>, anyWidth: bool)
    ensures FirstEligible(SortByWidthDesc(s), anyWidth) == BestImage(s, anyWidth)
    decreases |s|
  {
    if s != [] {
      SortedFirstEligible(s[1..], anyWidth);
      FirstEligibleInsert(s[0], SortByWidthDesc(s[1..]), anyWidth);
      BestImageStep(s, anyWidth);
    }
  }

  /**
   * The loop of `add_artist`: start from the widest image, then take the
   * first in-band image of the sorted list and stop.
   */
  method ChooseImageUrl(images: seq<Image>) returns (url: string)
    ensures url == ImageUrl(images)
    ensures images == [] ==> url == ""
  {
    url := "";
    if |images| > 0 {
      var sorted := SortByWidthDesc(images);
      url := sorted[0].url;
      var i := 0;
      while i < |sorted|
        invariant 0 <= i <= |sorted|
        invariant FirstEligible(sorted, false) == FirstEligible(sorted[i..], false)
        invariant url == sorted[0].url
      {
        if InBand(sorted[i].width) {
          url := sorted[i].url;
          assert FirstEligible(sorted, false) == Some(sorted[i]);
          break;
        }
        assert sorted[i..][1..] == sorted[i + 1..];
        i := i + 1;
      }
      SortedFirstEligible(images, false);
      SortedFirstEligible(images, true);
      assert FirstEligible(sorted, true) == Some(sorted[0]);
    }
  }
}

=== FILE: strings.dfy ===
/**
 * The string operations the catalog relies on: Python's `split`, `", ".join`,
 * `int(...)` and `in`, JavaScript's `split(', ')`, and SQLite's
 * case-insensitive identifier comparison.
 */
module Strings {
  import opened Wrappers

  /** Python's `pat in s`. */
  predicate Contains(s: string, pat: string) {
    exists i | 0 <= i <= |s| - |pat| :: OccursAt(s, pat, i)
  }

  predicate OccursAt(s: string, pat: string, i: int) {
    0 <= i && i + |pat| <= |s| && s[i..i + |pat|] == pat
  }

  /** Python's `s.split(c)[-1]`: the longest suffix of `s` that has no `c`. */
  function AfterLast(s: string, c: char): (r: string)
    ensures |r| <= |s| && r == s[|s| - |r|..]
    ensures c !in r
    ensures |r| < |s| ==> s[|s| - |r| - 1] == c
  {
    if s == [] then []
    else if s[|s| - 1] == c then []
    else AfterLast(s[..|s| - 1], c) + [s[|s| - 1]]
  }

  /** Python's `s.split(c)[0]`: the longest prefix of `s` that has no `c`. */
  function BeforeFirst(s: string, c: char): (r: string)
    ensures |r| <= |s| && r == s[..|r|]
    ensures c !in r
    ensures |r| < |s| ==> s[|r|] == c
  {
    if s == [] then []
    else if s[0] == c then []
    else [s[0]] + BeforeFirst(s[1..], c)
  }

  lemma {:induction false} AfterLastOfSuffix(p: string, c: char, x: string)
    requires c !in x
    ensures AfterLast(p + [c] + x, c) == x
    decreases |x|
  {
    if x == [] {
      assert p + [c] + x == p + [c];
    } else {
      var s := p + [c] + x;
      assert s[..|s| - 1] == p + [c] + x[..|x| - 1];
      assert s[|s| - 1] == x[|x| - 1];
      AfterLastOfSuffix(p, c, x[..|x| - 1]);
      assert x[..|x| - 1] + [x[|x| - 1]] == x;
    }
  }

  lemma {:induction false} BeforeFirstOfPrefix(x: string, c: char, q: string)
    requires c !in x
    ensures BeforeFirst(x + [c] + q, c) == x
    decreases |x|
  {
    if x == [] {
      assert (x + [c] + q)[0] == c;
    } else {
      var s := x + [c] + q;
      assert s[0] == x[0];
      assert s[1..] == x[1..] + [c] + q;
      BeforeFirstOfPrefix(x[1..], c, q);
      assert [x[0]] + x[1..] == x;
    }
  }

  lemma {:induction false} BeforeFirstWithout(x: string, c: char)
    requires c !in x
    ensures BeforeFirst(x, c) == x
    decreases |x|
  {
    if x != [] {
      BeforeFirstWithout(x[1..], c);
      assert [x[0]] + x[1..] == x;
    }
  }

  /** Python's `sep.join(parts)`. */
  function Join(parts: seq<string>, sep: string): string
    decreases |parts|
  {
    if |parts| == 0 then ""
    else if |parts| == 1 then parts[0]
    else parts[0] + sep + Join(parts[1..], sep)
  }

  /** JavaScript's `s.split(', ')`: cut at every leftmost non-overlapping ", ". */
  function SplitCommaSpace(s: string): (r: seq<string>)
    ensures |r| >= 1
    decreases |s|
  {
    if |s| < 2 then [s]
    else if s[0] == ',' && s[1] == ' ' then [""] + SplitCommaSpace(s[2..])
    else
      var rest := SplitCommaSpace(s[1..]);
      [[s[0]] + rest[0]] + rest[1..]
  }

  /** `s` holds no ", ", the separator the listing splits on. */
  predicate NoCommaSpace(s: string) {
    forall i | 0 <= i < |s| - 1 :: !(s[i] == ',' && s[i + 1] == ' ')
  }

  lemma {:induction false} SplitWithoutComma(g: string)
    requires NoCommaSpace(g)
    ensures SplitCommaSpace(g) == [g]
    decreases |g|
  {
    if |g| >= 2 {
      assert !(g[0] == ',' && g[1] == ' ');
      assert NoCommaSpace(g[1..]) by {
        forall i | 0 <= i < |g[1..]| - 1
          ensures !(g[1..][i] == ',' && g[1..][i + 1] == ' ')
        {
          assert g[1..][i] == g[i + 1] && g[1..][i + 1] == g[i + 2];
        }
      }
      SplitWithoutComma(g[1..]);
      assert [g[0]] + g[1..] == g;
    }
  }

  lemma {:induction false} SplitAfterPart(g: string, t: string)
    requires NoCommaSpace(g)
    ensures SplitCommaSpace(g + ", " + t) == [g] + SplitCommaSpace(t)
    decreases |g|
  {
    var s := g + ", " + t;
    if g == [] {
      assert s[0] == ',' && s[1] == ' ' && s[2..] == t;
    } else {
      assert s[0] == g[0];
      assert s[1] == if |g| == 1 then ',' else g[1];
      assert !(s[0] == ',' && s[1] == ' ');
      assert s[1..] == g[1..] + ", " + t;
      assert NoCommaSpace(g[1..]) by {
        forall i | 0 <= i < |g[1..]| - 1
          ensures !(g[1..][i] == ',' && g[1..][i + 1] == ' ')
        {
          assert g[1..][i] == g[i + 1] && g[1..][i + 1] == g[i + 2];
        }
      }
      SplitAfterPart(g[1..], t);
      assert [g[0]] + g[1..] == g;
    }
  }

  /**
   * Splitting a ", "-joined list recovers it, provided the list is not empty
   * and no part holds ", " itself (a part may hold a bare comma, or end in one).
   */
  lemma {:induction false} SplitJoin(parts: seq<string>)
    requires |parts| >= 1
    requires forall i | 0 <= i < |parts| :: NoCommaSpace(parts[i])
    ensures SplitCommaSpace(Join(parts, ", ")) == parts
    decreases |parts|
  {
    if |parts| == 1 {
      SplitWithoutComma(parts[0]);
    } else {
      SplitJoin(parts[1..]);
      SplitAfterPart(parts[0], Join(parts[1..], ", "));
      assert [parts[0]] + parts[1..] == parts;
    }
  }

  /** A part that holds ", " comes back as two parts, so `SplitJoin` needs its requirement. */
  lemma SplitJoinSeparatorInPart()
    ensures SplitCommaSpace(Join(["a, b"], ", ")) == ["a", "b"]
  {
    var s := Join(["a, b"], ", ");
    assert s == "a, b";
    assert s[1..] == ", b" && s[1..][2..] == "b";
    assert SplitCommaSpace("b") == ["b"];
    assert SplitCommaSpace(", b") == ["", "b"];
    assert [s[0]] + "" == "a";
  }

  /** A part may hold a comma not followed by a space, as in "a,b". */
  lemma SplitJoinBareComma()
    ensures SplitCommaSpace(Join(["a,b", "c,"], ", ")) == ["a,b", "c,"]
  {
    SplitJoin(["a,b", "c,"]);
  }

  // ---- decimal integers ----

  predicate IsDigit(c: char) {
    '0' <= c <= '9'
  }

  predicate AllDigits(s: string) {
    forall i | 0 <= i < |s| :: IsDigit(s[i])
  }

  function DigitsValue(s: string): nat
    requires AllDigits(s)
  {
    if s == [] then 0
    else DigitsValue(s[..|s| - 1]) * 10 + (s[|s| - 1] as int - '0' as int)
  }

  /**
   * Python's `int(s)` on an optionally signed run of ASCII digits; `None` where
   * Python raises.
   */
  function ParseInt(s: string): Option<int> {
    if |s| > 0 && (s[0] == '-' || s[0] == '+') then
      (if |s| > 1 && AllDigits(s[1..]) then
         var v: int := DigitsValue(s[1..]);
         Some(if s[0] == '-' then -v else v)
       else None)
    else if |s| > 0 && AllDigits(s) then Some(DigitsValue(s))
    else None
  }

  /**
   * What `ParseInt` accepts, exactly: a non-empty text of digits, alone or
   * after one sign; the value is negative only after a leading "-", and plain
   * digits never give a negative value.
   */
  lemma ParseIntShape(s: string)
    ensures ParseInt(s).Some? <==>
              (s != [] && AllDigits(s)) || (|s| > 1 && (s[0] == '-' || s[0] == '+') && AllDigits(s[1..]))
    ensures ParseInt(s).Some? ==> s != [] && (forall i | 0 < i < |s| :: IsDigit(s[i])) && IsDigit(s[|s| - 1])
    ensures ParseInt(s).Some? && ParseInt(s).value < 0 ==> s[0] == '-'
    ensures s != [] && AllDigits(s) ==> ParseInt(s).Some? && ParseInt(s).value >= 0
  {
  }

  function DigitChar(d: nat): char
    requires d < 10
  {
    ('0' as int + d) as char
  }

  function NatToString(n: nat): (r: string)
    ensures |r| >= 1 && AllDigits(r)
  {
    if n < 10 then [DigitChar(n)] else NatToString(n / 10) + [DigitChar(n % 10)]
  }

  /** Python's `str(n)` on an int. */
  function IntToString(n: int): string {
    if n < 0 then "-" + NatToString(-n) else NatToString(n)
  }

  lemma {:induction false} NatToStringValue(n: nat)
    ensures DigitsValue(NatToString(n)) == n
  {
    if n >= 10 {
      var s := NatToString(n);
      assert s[..|s| - 1] == NatToString(n / 10);
      NatToStringValue(n / 10);
    }
  }

  /** Printing an integer and parsing it back gives the same integer. */
  lemma ParseIntToString(n: int)
    ensures ParseInt(IntToString(n)) == Some(n)
  {
    if n < 0 {
      var d := NatToString(-n);
      var s := "-" + d;
      assert s[0] == '-' && s[1..] == d;
      NatToStringValue(-n);
      var v: int := DigitsValue(d);
      assert ParseInt(s) == Some(-v);
    } else {
      var s := NatToString(n);
      assert IsDigit(s[0]);
      NatToStringValue(n);
      assert ParseInt(s) == Some(DigitsValue(s));
    }
  }

  // ---- SQLite identifiers ----

  function LowerAscii(c: char): char {
    if 'A' <= c <= 'Z' then (c as int - 'A' as int + 'a' as int) as char else c
  }

  /** SQLite compares table and column names without regard to ASCII case. */
  predicate SameIdent(a: string, b: string) {
    |a| == |b| && forall i | 0 <= i < |a| :: LowerAscii(a[i]) == LowerAscii(b[i])
  }

  /** The characters SQLite's tokenizer skips between tokens. */
  predicate IsSqlSpace(c: char) {
    c == ' ' || c == '\t' || c == '\n' || c as int == 12 || c == '\r'
  }

  function TrimStart(s: string): (r: string)
    ensures r == [] || !IsSqlSpace(r[0])
    decreases |s|
  {
    if s != [] && IsSqlSpace(s[0]) then TrimStart(s[1..]) else s
  }

  function TrimEnd(s: string): (r: string)
    ensures r == [] || !IsSqlSpace(r[|r| - 1])
    decreases |s|
  {
    if s != [] && IsSqlSpace(s[|s| - 1]) then TrimEnd(s[..|s| - 1]) else s
  }

  /**
   * A name as SQLite's tokenizer reads it out of SQL text: without the
   * whitespace around it.
   */
  function Trim(s: string): string {
    TrimEnd(TrimStart(s))
  }

  /** A name with no whitespace at either end is read as it is. */
  lemma TrimUnpadded(s: string)
    requires s == [] || (!IsSqlSpace(s[0]) && !IsSqlSpace(s[|s| - 1]))
    ensures Trim(s) == s
  {
  }

  /** Whitespace added at either end of a name is not part of it. */
  lemma TrimPadded(c: char, s: string)
    requires IsSqlSpace(c)
    ensures Trim([c] + s) == Trim(s)
    ensures Trim(s + [c]) == Trim(s)
  {
    assert ([c] + s)[1..] == s;
    TrimStartPadded(s, c);
    if TrimStart(s) != [] {
      assert (TrimStart(s) + [c])[..|TrimStart(s)|] == TrimStart(s);
    }
  }

  lemma {:induction false} TrimStartPadded(s: string, c: char)
    requires IsSqlSpace(c)
    ensures TrimStart(s + [c]) == if TrimStart(s) == [] then [] else TrimStart(s) + [c]
    decreases |s|
  {
    if s == [] {
      assert ([] + [c])[1..] == [];
      assert TrimStart([]) == [];
    } else if IsSqlSpace(s[0]) {
      assert (s + [c])[0] == s[0];
      assert (s + [c])[1..] == s[1..] + [c];
      TrimStartPadded(s[1..], c);
    } else {
      assert (s + [c])[0] == s[0];
    }
  }
}

=== FILE: wrappers.dfy ===
/** Option and Result, used for Python's `None` returns and raised exceptions. */
module Wrappers {

  datatype Option<+T> = None | Some(value: T)

  datatype Result<+T, +E> = Ok(value: T) | Err(error: E) {
    predicate IsFailure() {
      Err?
    }

    function PropagateFailure<U>(): Result<U, E>
      requires Err?
    {
      Err(error)
    }

    function Extract(): T
      requires Ok?
    {
      value
    }
  }
}
